=== FILE: README.md ===
# dynamic-fmm binding engine, modelled in Dafny

greenscreens dynamic-fmm lets a Java program call functions of a native
shared library through an annotated interface. `ExternalFactory.create`
returns a proxy for the interface. Its `ExternalInvocationHandler`:

- finds the library from the `@External` annotation;
- links one downcall handle per interface method, built once and cached;
- converts each call's arguments:
  - strings become trimmed UTF-8 segments;
  - method handles become upcall pointers;
  - a parameter annotated `@Callback` becomes a pointer to a callback
    method bound to the argument object;
- converts a `String` result back.

`ForeignGenerator` builds the method-to-handle table for a whole interface
ahead of time. `CallbackGenerator` resolves callback methods through a
per-class cache. `Converters` copies primitive arrays into native segments
and back. `Helpers` holds the shared small functions. The test utility
`ByteUtil` holds hex encoding, hex decoding and byte-buffer copying.

This project models the pure decision logic of that engine:

- reflective classes, methods, parameters and annotations are data;
- exceptions are `Result` values;
- `null` is `Option`;
- caches are maps threaded through the functions, each with a coherence
  invariant.

It proves what the code promises:

- round trips:
  - hex encoding and decoding;
  - array to segment to array;
  - boolean packing;
  - wide strings;
- idempotence of trimming, normalisation and suffixing;
- that each cache returns what a fresh computation would, and builds each
  entry once;
- that the argument conversion through the callback cache equals a
  cache-free reference definition.

Modules, one per file:

| module | file | models |
|---|---|---|
| `Jvm` | jvm.dfy | Java types, values, method handles (`type`, `bindTo`), exceptions |
| `Helpers` | helpers.dfy | `Helpers.java`, and the copies of its functions in `Converters.java` and `ExternalFactory.java` |
| `Layouts` | layouts.dfy | `toLayout`, both `tolayouts`, the `buildDescriptor` family, `toPointer` |
| `NativeMemory` | native_memory.dfy | `Arena.allocateArray` and `MemorySegment.toArray`: arrays stored little-endian, element by element |
| `Converters` | converters.dfy | the two `reformat` conversions of `Converters.java` |
| `ForeignGenerator` | foreign_generator.dfy | `ForeignGenerator.java` |
| `CallbackGenerator` | callback_generator.dfy | `CallbackGenerator.java`, and the private copies of `initCallback` / `getCallbacks` in the handler |
| `InvocationHandler` | invocation_handler.dfy | `ExternalInvocationHandler.java`: `findLib`, `get`, `wrap`, `invoke` |
| `ByteUtil` | byte_util.dfy | `ByteUtil.java` (hex and buffers) |

The repository carries up to three copies of several functions. Each is
modelled once:

- `toBoolean`, `toBytes`, `fromWideString` and `toWideString` exist in
  `Helpers`, `Converters` and `ExternalFactory`.
- `toLayout`, `tolayouts` and `buildDescriptor` exist in `Converters`,
  `ForeignGenerator` and `ExternalInvocationHandler`.
- `normalize` and `toCallback` have further copies.

The `## Model` table cites one copy. The copies compute the same results,
with these differences:

- `toPointer` and `buildDescriptor(MethodHandle)` in
  `ExternalInvocationHandler` (lines 181-184 and 191-194) lack the `null`
  check of the copies in `Converters` and `ForeignGenerator`. A `null`
  handle makes them throw a null-pointer exception instead of returning
  `null`. `Layouts.ToPointerUnchecked` models the handler's form.
- `getCallbacks` in `ExternalInvocationHandler` (lines 348-357) keys its
  cache on the class itself, where `CallbackGenerator` (lines 110-118) keys
  it on `toType(clazz)`. The two agree only because `toType` is the
  identity (`Helpers.ToType`).
- `getCallbacks` filters on different annotation types of the same simple
  name. `Helpers.getCallbacks` (`Helpers.java` lines 18 and 162-164) keeps
  methods carrying `io.greenscreens.foreign.annotations.Callback`. The
  copies in `Converters` (lines 206-210) and `ExternalInvocationHandler`
  (line 352) keep methods carrying the same-package
  `io.greenscreens.foreign.Callback`. `Helpers.CallbackMethods` takes the
  annotation type as a parameter.
- The remaining copies differ only in layout and formatting.

Behaviour that looks unintended is modelled as written, with a lemma that
exhibits it:

- `tolayouts(Method)` computes every argument layout from parameter 0.
  - `Layouts.SecondParameterLayoutIsLost`: `(int, String)` is described as
    `(int, int)`.
- `isAllowed(Method)` counts a *mapped* stream of parameter verdicts, so
  parameters never disqualify a method.
  - `ForeignGenerator.DisallowedParameterIsAccepted`: a method taking
    `Object` passes.
- `Helpers.toType` maps `T[]` to `T[].arrayType().componentType()`, which is
  `T[]` again, so it is the identity.
- `wrap`'s array branch tests `klazz.arrayType().isPrimitive()`, which is
  never true, so no argument takes it.
  - `InvocationHandler.ArrayBranchUnreachable`.
- `toLayout(void.class)` matches none of the eight scalar branches and
  returns `null`. Only a `void` parameter 0 could make a method descriptor
  fail. Java forbids `void` formal parameters, so that failure is
  unreachable. `Jvm.NoVoidParameter` states the rule, and under it
  `Layouts.MethodDescriptor` always succeeds.
- `isVoid` accepts both `void` and `Void`, but the descriptor builders test
  `void.class` alone. A method returning `Void` is described with an
  address result (`Layouts.VoidLayouts`). `isVoid` itself is never called.
- `CallbackGenerator` collects callback methods through
  `Helpers.getCallbacks`, which keeps `annotations.Callback` methods, and
  then reads the same-package `@Callback` name from them.
  - `CallbackGenerator.SamePackageCallbackIsIgnored`: an interface written
    like `IStringCallback`, with the same-package annotation, gets a `null`
    pointer.
  - `CallbackGenerator.MarkerOnlyCallbackThrows`: a method carrying only
    `annotations.Callback` makes the name filter throw a null-pointer
    exception.
  - The handler's own copy filters on the annotation it reads and is not
    affected (`CallbackGenerator.ForeignSelectionSucceeds`).
- `toPrimitive` (and its copy `reformat(Object)`) unwraps a wrapper in each
  `switch` arm, but the method's return type is `Object`, so the primitive
  is boxed again. The method returns a wrapper equal to its input, and is
  the identity (`Helpers.ToPrimitiveKeepsWrapper`).
- `bytesToHex` and `charsToHex` allocate `length * 2` chars in 32-bit `int`
  arithmetic. From 2^30 elements on the product is negative, and the
  allocation throws `NegativeArraySizeException`. `bufferToHex` passes that
  exception on for a limit of 2^30 or more.
- `fromWideString` keeps the terminating NUL in the string it returns.
- `charsToHex` indexes the digit table with the unmasked char, so a char of
  256 or more fails with an index error.
- `fromHexAsBytes` reads past the end of an odd-length string, and counts a
  non-hex character as -1.

## Model

| member | source | states |
|---|---|---|
| Helpers.ToType | src/main/java/io/greenscreens/foreign/Helpers.java:51-53 | the array mapping gives back the class it was given, for every class |
| Helpers.Trim | src/main/java/io/greenscreens/foreign/Helpers.java:152-154 | the result has no character up to U+0020 at either end, and the input is the result with such characters added on both sides |
| Helpers.Normalize | src/main/java/io/greenscreens/foreign/Helpers.java:152-154 | `null` becomes the empty string; otherwise the input is the result padded with blanks on both sides; any result is trimmed, so it is the input's unique trimmed core |
| Helpers.TrimOfPadded | src/main/java/io/greenscreens/foreign/Helpers.java:152-154 | trimming removes exactly the blank padding: a string with non-blank ends, padded with blanks, trims back to itself |
| Helpers.TrimOfTrimmed | src/main/java/io/greenscreens/foreign/Helpers.java:152-154 | a string with non-blank ends trims to itself |
| Helpers.TrimIdempotent | src/main/java/io/greenscreens/foreign/Helpers.java:152-154 | trimming twice equals trimming once |
| Helpers.NormalizeIdempotent | src/main/java/io/greenscreens/foreign/Helpers.java:152-154 | normalising a normalised value changes nothing |
| Helpers.ToBoolean | src/main/java/io/greenscreens/foreign/Helpers.java:90-97 | one flag per byte, set exactly when the byte's low bit is 1 |
| Helpers.ToBytes | src/main/java/io/greenscreens/foreign/Helpers.java:105-112 | one byte per flag: 1 for true, 0 for false |
| Helpers.BooleanPackingRoundTrip | src/main/java/io/greenscreens/foreign/Helpers.java:90-112 | unpacking packed flags gives the flags back |
| Helpers.ToBooleanReadsLowBitOnly | src/main/java/io/greenscreens/foreign/Helpers.java:90-97 | two byte arrays unpack alike if and only if they have the same length and the same low bits |
| Helpers.ToPrimitive | src/main/java/io/greenscreens/foreign/Helpers.java:120-144 | the identity on objects: `null` stays `null`, and a wrapper comes back as an equal wrapper, because the `Object` return type boxes the unwrapped primitive again; a primitive argument arrives boxed |
| Helpers.ToPrimitiveKeepsWrapper | src/main/java/io/greenscreens/foreign/Converters.java:163-176 | an `Integer` comes back as the same `Integer`, never as an unboxed `int` |
| Helpers.ToWideString | src/main/java/io/greenscreens/foreign/Helpers.java:78-82 | the buffer holds the string followed by one NUL |
| Helpers.FromWideString | src/main/java/io/greenscreens/foreign/Helpers.java:61-69 | the result is the prefix of the buffer up to and including the first NUL, or the whole buffer if it has no NUL |
| Helpers.WideStringRoundTrip | src/main/java/io/greenscreens/foreign/Helpers.java:61-82 | decoding an encoded NUL-free string gives the string plus its NUL |
| Helpers.FromWideStringIdempotent | src/main/java/io/greenscreens/foreign/Helpers.java:61-69 | decoding a decoded buffer changes nothing |
| Helpers.ToCallback | src/main/java/io/greenscreens/foreign/Converters.java:192-199 | `null` exactly when no annotation is `@Callback`; otherwise the name of the first `@Callback` |
| Helpers.CallbackMethods | src/main/java/io/greenscreens/foreign/Helpers.java:162-164 | a method is kept if and only if it is one of the class's methods and carries the filter's annotation type: `annotations.Callback` for `Helpers.getCallbacks`, the same-package `Callback` for the copies in `Converters` and the handler |
| Helpers.CallbackMethodsAppend | src/main/java/io/greenscreens/foreign/Helpers.java:162-164 | the filter keeps declaration order: filtering a concatenation concatenates the filtered parts |
| Helpers.CallbackMethodsCarry | src/main/java/io/greenscreens/foreign/Converters.java:206-210 | every method at every index of a filtered list carries the filter's annotation type |
| Helpers.IsWin | src/main/java/io/greenscreens/foreign/Helpers.java:31-33 | true if and only if "win" occurs in the OS name in any mix of upper and lower case |
| Helpers.Contains | src/main/java/io/greenscreens/foreign/Helpers.java:31-33 | true if and only if the searched text occurs at some position |
| Layouts.ToLayout | src/main/java/io/greenscreens/foreign/Converters.java:91-115 | `void` has no layout; a primitive gets its scalar layout; every other class is an address |
| Layouts.VoidLayouts | src/main/java/io/greenscreens/foreign/Helpers.java:41-43 | `isVoid` holds exactly for `void` and `Void`: `void` is the only class without a layout, and `Void` is an address |
| Layouts.ScalarLayoutsAreDistinct | src/main/java/io/greenscreens/foreign/Converters.java:91-115 | the scalar layouts are inverted by their scalar kind, so no two primitives share one, and exactly the non-primitives are addresses |
| Layouts.MethodArgLayouts | src/main/java/io/greenscreens/foreign/Converters.java:287-296 | one entry per declared parameter, each the layout of parameter 0 |
| Layouts.TypeArgLayouts | src/main/java/io/greenscreens/foreign/Converters.java:250-259 | entry `i` is the layout of parameter type `i` |
| Layouts.MethodLayoutsFollowFirstParameter | src/main/java/io/greenscreens/foreign/Converters.java:287-296 | the method form equals the per-parameter form if and only if every parameter has the layout of parameter 0 |
| Layouts.SecondParameterLayoutIsLost | src/main/java/io/greenscreens/foreign/Converters.java:287-296 | `(int, String)` is described as two ints, where the per-parameter form gives int and address |
| Layouts.Describe | src/main/java/io/greenscreens/foreign/Converters.java:266-280 | fails with a null-pointer error if and only if some argument has no layout; otherwise the return layout and the argument layouts in order |
| Layouts.MethodDescriptor | src/main/java/io/greenscreens/foreign/Converters.java:266-280 | every method without a `void` parameter, so every method Java can declare, describes; the result is the return type's layout; there is one argument per parameter, each with parameter 0's layout |
| Layouts.MethodDescriptorShape | src/main/java/io/greenscreens/foreign/Converters.java:266-296 | a method describes exactly unless parameter 0 is `void`, a case Java rules out; the return layout is absent exactly for `void`; there is one argument per parameter, each with parameter 0's layout |
| Layouts.HandleDescriptor | src/main/java/io/greenscreens/foreign/Converters.java:228-243 | `null` for a `null` handle; a present handle describes exactly when no parameter type is `void`, with the handle type's return layout and one layout per parameter type; the only failure is a null pointer |
| Layouts.TypeDescribes | src/main/java/io/greenscreens/foreign/Converters.java:234-243 | a handle type describes if and only if none of its parameter types is `void` |
| Layouts.ToPointer | src/main/java/io/greenscreens/foreign/Converters.java:217-221 | `null` for `null`; otherwise an upcall stub targeting the handle, with the handle's descriptor |
| Layouts.ToPointerUnchecked | src/main/java/io/greenscreens/foreign/ExternalInvocationHandler.java:181-184 | a `null` handle fails with a null-pointer error; otherwise the same stub as the checked form |
| NativeMemory.AllocateArray | src/main/java/io/greenscreens/foreign/Converters.java:117-138 | the segment has element-size × length bytes and decodes, word by word, to the array's elements in two's-complement form |
| NativeMemory.ToArray | src/main/java/io/greenscreens/foreign/Converters.java:140-161 | reading fails with an illegal-state error if and only if the segment size is not a multiple of the element size; otherwise it gives size / element-size elements of the requested kind |
| NativeMemory.ToArrayOfAllocate | src/main/java/io/greenscreens/foreign/Converters.java:117-161 | reading back a freshly allocated copy of a non-boolean array gives the array |
| NativeMemory.AllocateOfToArray | src/main/java/io/greenscreens/foreign/Converters.java:117-161 | copying out the elements of a whole-element segment and allocating them again reproduces the segment byte for byte |
| Converters.ReformatOut | src/main/java/io/greenscreens/foreign/Converters.java:117-138 | a non-primitive class fails with "Unsupported data type"; a `null` array is stored as an empty one; an array of another kind fails the cast; the segment has element-size × length bytes |
| Converters.ReformatIn | src/main/java/io/greenscreens/foreign/Converters.java:140-161 | a non-primitive class gives back the segment itself; a `null` segment fails with a null-pointer error; a primitive class gives an array of that kind with one element per element-size bytes |
| Converters.ReformatRoundTrip | src/main/java/io/greenscreens/foreign/Converters.java:117-161 | an array of the declared kind survives the trip into native memory and back; a `null` array comes back empty |
| Converters.SegmentRoundTrip | src/main/java/io/greenscreens/foreign/Converters.java:117-161 | for non-boolean kinds, reading a segment and writing it back reproduces it |
| Converters.BooleanSegmentNormalized | src/main/java/io/greenscreens/foreign/Converters.java:117-161 | a boolean segment read and written back keeps its length, and each byte becomes its low bit |
| ForeignGenerator.IsAllowedType | src/main/java/io/greenscreens/foreign/ForeignGenerator.java:95-97 | allowed if and only if the class is in the allowed list, that is, if and only if it is neither an array nor another class |
| ForeignGenerator.AllowedTypesCover | src/main/java/io/greenscreens/foreign/ForeignGenerator.java:35-40 | the allowed list holds exactly the scalars, their wrappers, `void`, `Void`, `String`, `MethodHandle`, `MemorySegment` and the two buffers |
| ForeignGenerator.ParameterChecks | src/main/java/io/greenscreens/foreign/ForeignGenerator.java:81-87 | one verdict per parameter: allowed class or `@Callback` |
| ForeignGenerator.IsAllowedMethod | src/main/java/io/greenscreens/foreign/ForeignGenerator.java:81-87 | a method qualifies if and only if its return type is allowed |
| ForeignGenerator.DisallowedParameterIsAccepted | src/main/java/io/greenscreens/foreign/ForeignGenerator.java:81-87 | a method returning `int` and taking an unannotated `Object` qualifies |
| ForeignGenerator.Allowed | src/main/java/io/greenscreens/foreign/ForeignGenerator.java:77-79 | a method is kept if and only if it is declared and qualifies |
| ForeignGenerator.AllowedAppend | src/main/java/io/greenscreens/foreign/ForeignGenerator.java:77-79 | the filter keeps declaration order |
| ForeignGenerator.Build | src/main/java/io/greenscreens/foreign/ForeignGenerator.java:62-68 | an unexported name fails with no-such-element; otherwise it succeeds if and only if the method describes; the symbol is the method's name; a spreader of the parameter count exists exactly when there are parameters |
| ForeignGenerator.Generate | src/main/java/io/greenscreens/foreign/ForeignGenerator.java:50-54 | succeeds if and only if every qualifying method builds; the table's keys are the qualifying methods, and each value is that method's build |
| ForeignGenerator.GenerateSucceeds | src/main/java/io/greenscreens/foreign/ForeignGenerator.java:50-68 | a library exporting every qualifying method of a Java interface yields a table |
| CallbackGenerator.LookupCallbacks | src/main/java/io/greenscreens/foreign/CallbackGenerator.java:110-118 | the list returned is the class's methods carrying the cache's annotation type; a cached class leaves the cache unchanged; the cache stays coherent and only gains the class |
| CallbackGenerator.LookupTwice | src/main/java/io/greenscreens/foreign/CallbackGenerator.java:110-118 | looking a class up again returns the same list and changes nothing |
| CallbackGenerator.ChooseCallback | src/main/java/io/greenscreens/foreign/CallbackGenerator.java:96-102 | the first method carrying the name if there is one, else the first method of the list, else none |
| CallbackGenerator.SelectCallback | src/main/java/io/greenscreens/foreign/CallbackGenerator.java:96-102 | a null-pointer failure if and only if the name filter reaches a method without the same-package `@Callback` before a match; otherwise the chosen method |
| CallbackGenerator.ScanNamed | src/main/java/io/greenscreens/foreign/CallbackGenerator.java:98-100 | the lazy name filter: throws exactly when an unannotated method precedes every match; otherwise the index of the first match |
| CallbackGenerator.AnnotatedSelectionSucceeds | src/main/java/io/greenscreens/foreign/CallbackGenerator.java:96-102 | a list whose methods all carry the same-package `@Callback` selects without failure, as the choice |
| CallbackGenerator.ForeignSelectionSucceeds | src/main/java/io/greenscreens/foreign/ExternalInvocationHandler.java:335-357 | the handler's copy filters on the annotation it reads, so its selection never fails |
| CallbackGenerator.SingleCallbackChosen | src/main/java/io/greenscreens/foreign/CallbackGenerator.java:96-102 | a class with a single callback method gets it under any name |
| CallbackGenerator.CallbackByName | src/main/java/io/greenscreens/foreign/CallbackGenerator.java:96-102 | a null-pointer failure exactly when the name filter throws on the class's filtered methods, never for the handler's copy; otherwise the chosen method unreflected, none exactly when the filtered list is empty, and a method of the class carrying the filter's annotation |
| CallbackGenerator.CallbackByAnnotation | src/main/java/io/greenscreens/foreign/CallbackGenerator.java:82-85 | a `null` annotation gives none and leaves the cache unchanged; otherwise the lookup by the annotation's name among the methods `Helpers.getCallbacks` keeps |
| CallbackGenerator.CallbackForParam | src/main/java/io/greenscreens/foreign/CallbackGenerator.java:69-102 | an unannotated parameter gives none; an annotated one fails with a null pointer exactly when the name filter throws on the methods of its class carrying `annotations.Callback`, and gets a handle exactly when that list is non-empty and the filter does not throw; the handle is the method chosen by the annotation's name, unreflected, as the lookup by name gives it |
| CallbackGenerator.BoundCallback | src/main/java/io/greenscreens/foreign/CallbackGenerator.java:57-60 | a lookup failure is passed on; no handle gives `null`; otherwise it succeeds exactly when binding succeeds, with the bound handle |
| CallbackGenerator.CallbackPointer | src/main/java/io/greenscreens/foreign/CallbackGenerator.java:43-46 | a binding failure is passed on; otherwise the upcall pointer of the bound handle |
| CallbackGenerator.BoundCallbackSignature | src/main/java/io/greenscreens/foreign/CallbackGenerator.java:57-60 | binding the receiver of an unreflected callback method leaves exactly the method's declared signature |
| CallbackGenerator.CallbackPointerDescriptor | src/main/java/io/greenscreens/foreign/CallbackGenerator.java:43-46 | an upcall pointer's descriptor gives each callback parameter its own layout |
| CallbackGenerator.SamePackageCallbackIsIgnored | src/main/java/io/greenscreens/foreign/Helpers.java:18 | an interface whose callback method carries the same-package `@Callback`, as `IStringCallback` does, gets a `null` pointer |
| CallbackGenerator.MarkerOnlyCallbackThrows | src/main/java/io/greenscreens/foreign/CallbackGenerator.java:99 | a callback method carrying only `annotations.Callback` makes `initCallback` fail with a null pointer |
| InvocationHandler.LibraryExtension | src/main/java/io/greenscreens/foreign/ExternalInvocationHandler.java:71-88 | ".dll" if and only if the lower-cased OS name contains "win", else ".so" |
| InvocationHandler.EnsureSuffix | src/main/java/io/greenscreens/foreign/ExternalInvocationHandler.java:71-80 | the result ends with the extension; a name already ending with it is kept; otherwise the extension is appended |
| InvocationHandler.EnsureSuffixIdempotent | src/main/java/io/greenscreens/foreign/ExternalInvocationHandler.java:71-80 | adding the extension twice equals adding it once |
| InvocationHandler.LibraryBase | src/main/java/io/greenscreens/foreign/ExternalInvocationHandler.java:71-80 | the trimmed annotation name if it is not empty; else the trimmed property value; else empty |
| InvocationHandler.FindLib | src/main/java/io/greenscreens/foreign/ExternalInvocationHandler.java:71-80 | a missing annotation fails with a null-pointer error; a path ends with the platform extension; it is the base itself when the base already ends with the extension, and the base with the extension appended otherwise |
| InvocationHandler.NamePrecedesProperty | src/main/java/io/greenscreens/foreign/ExternalInvocationHandler.java:71-80 | with a non-blank name the system properties do not matter |
| InvocationHandler.FindLibFixedPoint | src/main/java/io/greenscreens/foreign/ExternalInvocationHandler.java:71-80 | a resolved path, given back as the name, resolves to itself |
| InvocationHandler.NewHandler | src/main/java/io/greenscreens/foreign/ExternalInvocationHandler.java:46-56 | a new handler has empty caches and is coherent |
| InvocationHandler.Get | src/main/java/io/greenscreens/foreign/ExternalInvocationHandler.java:229-234 | the result equals a fresh build; a cached method leaves the handler unchanged; a miss stores the build and counts one build; a failure stores nothing |
| InvocationHandler.GetTwice | src/main/java/io/greenscreens/foreign/ExternalInvocationHandler.java:229-234 | getting a method again returns the same downcall and builds nothing |
| InvocationHandler.GetAllBuildsEachOnce | src/main/java/io/greenscreens/foreign/ExternalInvocationHandler.java:229-234 | over any sequence of calls, the build count grows by at most the number of distinct methods not yet cached |
| InvocationHandler.ArrayBranchUnreachable | src/main/java/io/greenscreens/foreign/ExternalInvocationHandler.java:122 | no parameter class satisfies the array guard |
| InvocationHandler.PlanFor | src/main/java/io/greenscreens/foreign/ExternalInvocationHandler.java:109-160 | `String` parameters allocate strings; `MethodHandle` parameters become pointers; other `@Callback` parameters bind callbacks; the rest pass through; the array copy never happens |
| InvocationHandler.WrapArg | src/main/java/io/greenscreens/foreign/ExternalInvocationHandler.java:118-158 | converting one argument through the callback cache gives the cache-free expected argument and keeps the cache coherent |
| InvocationHandler.ExpectedArgsPerIndex | src/main/java/io/greenscreens/foreign/ExternalInvocationHandler.java:109-160 | conversion succeeds if and only if there are no surplus arguments and each argument converts; then entry `i` is argument `i` converted |
| InvocationHandler.WrapAll | src/main/java/io/greenscreens/foreign/ExternalInvocationHandler.java:109-160 | the loop through the callback cache gives the cache-free expected arguments |
| InvocationHandler.Wrap | src/main/java/io/greenscreens/foreign/ExternalInvocationHandler.java:109-160 | `null` arguments stay `null` and leave the cache alone; otherwise it succeeds exactly when the expected arguments do, with them as result |
| InvocationHandler.StringArgumentTrimmed | src/main/java/io/greenscreens/foreign/ExternalInvocationHandler.java:143-145 | a string argument reaches native code trimmed, as padding removed from the original; `null` reaches it as empty |
| InvocationHandler.CallbackArgumentIsBoundPointer | src/main/java/io/greenscreens/foreign/ExternalInvocationHandler.java:149-152 | a callback argument becomes a pointer to the selected method bound to the argument, described by the method's own parameters |
| InvocationHandler.Invoke | src/main/java/io/greenscreens/foreign/ExternalInvocationHandler.java:94-100 | a build failure is returned with the handler unchanged; a conversion failure is returned as is; once both succeed, the native call's result is returned as it comes, or, for a `String` method, the UTF-8 text at the returned address; a `null` string result fails with a null-pointer error and a non-segment one with a class-cast error; the method is cached |
| InvocationHandler.InvokeTwiceBuildsOnce | src/main/java/io/greenscreens/foreign/ExternalInvocationHandler.java:94-100 | calling a method twice links it once |
| ByteUtil.BytesToHex | src/test/java/io/greenscreens/util/ByteUtil.java:44-56 | fails with negative-array-size exactly from 2^30 bytes on; otherwise characters `2j` and `2j+1` are the digits of the high and low nibble of unsigned byte `j` |
| ByteUtil.BytesToHexDigits | src/test/java/io/greenscreens/util/ByteUtil.java:44-56 | every character of an encoding is an upper-case hex digit |
| ByteUtil.CharsToHex | src/test/java/io/greenscreens/util/ByteUtil.java:64-76 | fails with negative-array-size from 2^30 chars on; below that, succeeds if and only if every char is below 256, otherwise fails with an index error; the digit pairs of the char values |
| ByteUtil.CharsToHexAgreesWithBytes | src/test/java/io/greenscreens/util/ByteUtil.java:44-76 | chars below 256 encode exactly as the bytes with the same low bits, overflow included |
| ByteUtil.Digit | src/test/java/io/greenscreens/util/ByteUtil.java:84-93 | the value of a hex digit of either case, and -1 exactly for a non-digit |
| ByteUtil.FromHexAsBytes | src/test/java/io/greenscreens/util/ByteUtil.java:84-93 | an odd length fails with an index error; otherwise byte `k` is the low eight bits of 16 × digit(2k) + digit(2k+1) |
| ByteUtil.HexRoundTrip | src/test/java/io/greenscreens/util/ByteUtil.java:44-93 | bytes below the overflow length are encoded, and decoding the hex gives the bytes |
| ByteUtil.HexRoundTripFromText | src/test/java/io/greenscreens/util/ByteUtil.java:44-93 | encoding the decoding of an even-length Java string of upper-case digits succeeds and gives the string |
| ByteUtil.GetBytesFrom | src/test/java/io/greenscreens/util/ByteUtil.java:114-120 | a negative length fails with negative-array-size; a position outside `[0, limit]` fails with illegal-argument; too few remaining bytes fail with buffer-underflow; otherwise the `len` bytes from the position |
| ByteUtil.ToBytes | src/test/java/io/greenscreens/util/ByteUtil.java:110-112 | a `null` buffer fails with a null-pointer error; otherwise the bytes up to the limit |
| ByteUtil.BufferToHex | src/test/java/io/greenscreens/util/ByteUtil.java:24-36 | `null` for `null`; a limit of 2^30 or more fails with negative-array-size; otherwise the hex of the bytes up to the limit |
| ByteUtil.BufferHexRoundTrip | src/test/java/io/greenscreens/util/ByteUtil.java:24-93 | a buffer whose limit is below the overflow length is encoded, and decoding its hex gives its readable bytes |
| ByteUtil.Clone | src/test/java/io/greenscreens/util/ByteUtil.java:101-108 | same capacity; position 0; the original's limit; zeros past it; the original rewound |
| ByteUtil.CloneReadsSameBytes | src/test/java/io/greenscreens/util/ByteUtil.java:101-108 | a clone's readable bytes and hex are the original's |

## Left out

- Native linking, symbol lookup, arenas and memory lifetimes are left out,
  because they are foreign calls. A library's exports are a set of names.
  A linked downcall is the symbol, its descriptor and its spreader arity.
- Calling the native function is left out for the same reason. `Invoke`
  takes the call as a function parameter.
- Reading the UTF-8 string at a returned address is a parameter of `Invoke`.
  Encoding a string argument as UTF-8 is represented by the `Utf8String`
  argument.
- `ExternalFactory.create` and the `Proxy` are not modelled. They are
  reflection plumbing that only constructs the handler.
- The shutdown hook and `close` are not modelled. They only release the
  arena.
- The system properties are a map parameter. The OS name is a string
  parameter.
- `ConcurrentHashMap` concurrency is out of scope. The caches are
  sequential maps.
- `@Size`, `@GarbageCollector`, `Trivial`, `Instance` and the `variadic`
  helper are not modelled. The core never consults them.
- The library interfaces `CryptoJS` and `WKHtmlToX` are not modelled. They
  are clients of the engine.
- `fromBase64`, `toBase64`, the URL variants and `digest` in `ByteUtil` are
  not modelled. They delegate to JDK codecs and digests.
- Floating-point values are kept as raw bit patterns. Conversions never
  interpret them.
- The array branch of `wrap` is modelled as an error. Its guard can never
  hold, and the lemma `ArrayBranchUnreachable` proves it.
- `reformat` with a non-array object for a primitive class is covered by the
  kind-mismatch cast failure. Arrays are the only objects modelled for it.
- Helpers.ToLowerAscii: lower-cases ASCII letters only, because
  `toLowerCase` is locale and Unicode dependent, and only "win" is searched
  for.
- ByteUtil.Digit: recognises ASCII digits only, because
  `Character.digit` also accepts other Unicode digits.
- InvocationHandler.Invoke: the `IllegalAccessException` of
  `Lookup.unreflect` is not modelled, because public interface methods are
  always accessible.
- Jvm.BindTo: checks only that the leading parameter is a reference type, not
  that the receiver is an instance of it. Object instance-of is not modelled.
- ByteUtil.GetBytesFrom: the buffer's position after the call is not
  modelled. Callers only use the returned bytes.
- Dafny's `char` holds one Unicode scalar value, while a Java `String` is a
  sequence of UTF-16 code units. The model agrees with Java only for strings
  of Basic Multilingual Plane characters. A character outside that plane is
  one Dafny `char` but two Java chars, so `toWideString("😀")` allocates 3
  chars where `ToWideString` gives 2, and a lone surrogate cannot be
  represented at all. `ToWideString`, `FromWideString` and `Trim` are
  modelled for BMP strings.
- `getBytesFrom(null, …)` and `clone(null)` throw a null-pointer exception.
  `ByteUtil.GetBytesFrom` and `ByteUtil.Clone` take a buffer that is
  present, so that exception is not modelled. `ToBytes` and `BufferToHex`
  do model a `null` buffer.
- `io/greenscreens/foreign/annotations/Callback.java` is not part of this
  model. Only the presence of that annotation on a method is modelled.
- Native byte order is little-endian, as on the platforms the library
  targets.
- A failing `downcallHandle` is not modelled, because its causes lie in the
  native linker. A descriptor that cannot be built is modelled.

=== FILE: byte_util.dfy ===
/**
 Byte-array and byte-buffer utilities: hexadecimal encoding of bytes and
 chars, hexadecimal decoding, and copying the readable part of a
 `ByteBuffer`.
 */
module ByteUtil {
  import opened Jvm

  const HexArray: string := "0123456789ABCDEF"

  /** The characters of `HexArray`. */
  predicate IsUpperHexDigit(c: char) {
    '0' <= c <= '9' || 'A' <= c <= 'F'
  }

  /** `b & 0xFF`: the byte read as unsigned. */
  function Unsigned8(b: int8): (v: nat)
    ensures v < 256
    ensures v == b as int || v == b as int + 256
  {
    (b as int) % 256
  }

  /** A Java `(byte)` cast: the low eight bits of `x` as a signed byte. */
  function ToByte(x: int): int8 {
    var m := x % 256;
    if m >= 128 then (m - 256) as int8 else m as int8
  }

  /** The cast keeps exactly the low eight bits, and is the identity on
      values that fit. */
  lemma ToByteKeepsLowBits(x: int)
    ensures (ToByte(x) as int) % 256 == x % 256
    ensures -128 <= x < 128 ==> ToByte(x) as int == x
  {
  }

  /** The digit of the high nibble of an unsigned byte (`v >>> 4`). */
  function HighDigit(v: nat): char
    requires v < 256
  {
    HexArray[v / 16]
  }

  /** The digit of the low nibble of an unsigned byte (`v & 0x0F`). */
  function LowDigit(v: nat): char
    requires v < 256
  {
    HexArray[v % 16]
  }

  /** `s` holds the digit pairs of the unsigned values `vs`, high nibble
      first. */
  predicate HexOf(s: string, vs: seq<nat>)
    requires forall j :: 0 <= j < |vs| ==> vs[j] < 256
  {
    && |s| == 2 * |vs|
    && forall j :: 0 <= j < |vs| ==> s[2 * j] == HighDigit(vs[j]) && s[2 * j + 1] == LowDigit(vs[j])
  }

  function UnsignedBytes(bytes: seq<int8>): (vs: seq<nat>)
    ensures |vs| == |bytes| && forall j :: 0 <= j < |bytes| ==> vs[j] == Unsigned8(bytes[j]) && vs[j] < 256
  {
    seq(|bytes|, j requires 0 <= j < |bytes| => Unsigned8(bytes[j]))
  }

  lemma HexArrayIsUpperHex(d: nat)
    requires d < 16
    ensures IsUpperHexDigit(HexArray[d])
  {
  }

  /** The array length from which `length * 2`, a 32-bit `int` product,
      is negative. Java arrays hold fewer than 2^31 elements, so for every
      array the product is either `2 * length` or wraps below zero. */
  const HexOverflowLength: nat := 0x4000_0000

  /** `bytesToHex`: two upper-case hex digits per byte. The output array is
      allocated with `bytes.length * 2` chars, which throws
      `NegativeArraySizeException` from `HexOverflowLength` bytes on. */
  function BytesToHex(bytes: seq<int8>): (r: Result<string>)
    ensures r.Ok? <==> |bytes| < HexOverflowLength
    ensures r.Err? ==> r.error == NegativeArraySize
    ensures r.Ok? ==> HexOf(r.value, UnsignedBytes(bytes))
  {
    if |bytes| >= HexOverflowLength then Err(NegativeArraySize)
    else if |bytes| == 0 then Ok([])
    else
      var init := bytes[..|bytes| - 1];
      var v := Unsigned8(bytes[|bytes| - 1]);
      var prefix := BytesToHex(init).value;
      assert UnsignedBytes(bytes) == UnsignedBytes(init) + [v];
      HexOfSnoc(prefix, UnsignedBytes(init), v);
      Ok(prefix + [HighDigit(v), LowDigit(v)])
  }

  /** Appending the digit pair of one more value. */
  lemma HexOfSnoc(s: string, vs: seq<nat>, v: nat)
    requires forall j :: 0 <= j < |vs| ==> vs[j] < 256
    requires v < 256 && HexOf(s, vs)
    ensures HexOf(s + [HighDigit(v), LowDigit(v)], vs + [v])
  {
    var t, ws := s + [HighDigit(v), LowDigit(v)], vs + [v];
    forall j | 0 <= j < |ws|
      ensures t[2 * j] == HighDigit(ws[j]) && t[2 * j + 1] == LowDigit(ws[j])
    {
      if j < |vs| {
        assert t[2 * j] == s[2 * j] && t[2 * j + 1] == s[2 * j + 1];
      }
    }
  }

  /** The code units of some chars, as numbers. */
  function CharValues(chars: seq<char16>): (vs: seq<nat>)
    ensures |vs| == |chars| && forall j :: 0 <= j < |chars| ==> vs[j] == chars[j] as nat
  {
    seq(|chars|, j requires 0 <= j < |chars| => chars[j] as nat)
  }

  /** Every character of an encoding is a hex digit. */
  lemma BytesToHexDigits(bytes: seq<int8>)
    requires BytesToHex(bytes).Ok?
    ensures forall i :: 0 <= i < |BytesToHex(bytes).value| ==> IsUpperHexDigit(BytesToHex(bytes).value[i])
  {
    var r := BytesToHex(bytes).value;
    forall i | 0 <= i < |r|
      ensures IsUpperHexDigit(r[i])
    {
      var j := i / 2;
      assert i == 2 * j || i == 2 * j + 1;
      var v := UnsignedBytes(bytes)[j];
      HexArrayIsUpperHex(v / 16);
      HexArrayIsUpperHex(v % 16);
      assert r[i] == HexArray[v / 16] || r[i] == HexArray[v % 16];
    }
  }

  /** `charsToHex`: like `bytesToHex`, but the char is used unmasked, so a
      char of 256 or more indexes past the digit table. The allocation of
      `length * 2` chars comes first, so an overflowing length fails before
      any char is looked at. */
  function CharsToHex(chars: seq<char16>): (r: Result<string>)
    ensures r.Ok? <==> |chars| < HexOverflowLength && forall j :: 0 <= j < |chars| ==> chars[j] < 256
    ensures |chars| >= HexOverflowLength ==> r == Err(NegativeArraySize)
    ensures |chars| < HexOverflowLength && r.Err? ==> r.error == IndexOutOfBounds
    ensures r.Ok? ==> HexOf(r.value, CharValues(chars))
  {
    if |chars| >= HexOverflowLength then Err(NegativeArraySize)
    else if |chars| == 0 then Ok([])
    else
      var init := chars[..|chars| - 1];
      var v := chars[|chars| - 1] as nat;
      var prefix := CharsToHex(init);
      assert forall j :: 0 <= j < |init| ==> chars[j] == init[j];
      if prefix.Err? then Err(prefix.error)
      else if v / 16 >= 16 then Err(IndexOutOfBounds)
      else
        assert CharValues(chars) == CharValues(init) + [v];
        HexOfSnoc(prefix.value, CharValues(init), v);
        Ok(prefix.value + [HighDigit(v), LowDigit(v)])
  }

  /** Chars below 256 encode exactly as the bytes with the same low bits. */
  lemma CharsToHexAgreesWithBytes(chars: seq<char16>)
    requires forall j :: 0 <= j < |chars| ==> chars[j] < 256
    ensures CharsToHex(chars) == BytesToHex(seq(|chars|, j requires 0 <= j < |chars| => ToByte(chars[j] as int)))
  {
    var bytes := seq(|chars|, j requires 0 <= j < |chars| => ToByte(chars[j] as int));
    var vs := CharValues(chars);
    forall j | 0 <= j < |chars|
      ensures Unsigned8(bytes[j]) == vs[j]
    {
      UnsignedOfToByte(chars[j] as int);
    }
    assert UnsignedBytes(bytes) == vs;
    if |chars| < HexOverflowLength {
      HexOfUnique(CharsToHex(chars).value, BytesToHex(bytes).value, vs);
    }
  }

  /** The digit pairs of a sequence of values are unique. */
  lemma HexOfUnique(a: string, b: string, vs: seq<nat>)
    requires forall j :: 0 <= j < |vs| ==> vs[j] < 256
    requires HexOf(a, vs) && HexOf(b, vs)
    ensures a == b
  {
    forall i | 0 <= i < |a|
      ensures a[i] == b[i]
    {
      var j := i / 2;
      assert i == 2 * j || i == 2 * j + 1;
      assert j < |vs|;
      assert a[2 * j] == HighDigit(vs[j]) == b[2 * j];
      assert a[2 * j + 1] == LowDigit(vs[j]) == b[2 * j + 1];
    }
  }

  /** `Character.digit(c, 16)` on ASCII: the digit's value, or -1. */
  function Digit(c: char): (d: int)
    ensures -1 <= d < 16
    ensures d == -1 <==> !(('0' <= c <= '9') || ('a' <= c <= 'f') || ('A' <= c <= 'F'))
  {
    if '0' <= c <= '9' then c as int - '0' as int
    else if 'a' <= c <= 'f' then c as int - 'a' as int + 10
    else if 'A' <= c <= 'F' then c as int - 'A' as int + 10
    else -1
  }

  /** The digit table and `Digit` are inverse to each other. */
  lemma DigitOfHexArray(d: nat)
    requires d < 16
    ensures Digit(HexArray[d]) == d
  {
  }

  lemma HexArrayOfDigit(c: char)
    requires IsUpperHexDigit(c)
    ensures 0 <= Digit(c) && HexArray[Digit(c)] == c
  {
  }

  /** `fromHexAsBytes`: a byte per pair of characters. An odd length reads
      past the end of the string; a non-hex character counts as -1. */
  function FromHexAsBytes(s: string): (r: Result<seq<int8>>)
    ensures r.Ok? <==> |s| % 2 == 0
    ensures r.Err? ==> r.error == IndexOutOfBounds
    ensures r.Ok? ==> (|r.value| == |s| / 2
                       && forall k :: 0 <= k < |r.value| ==> r.value[k] == ToByte(Digit(s[2 * k]) * 16 + Digit(s[2 * k + 1])))
  {
    if |s| % 2 == 1 then Err(IndexOutOfBounds)
    else Ok(seq(|s| / 2, k requires 0 <= k < |s| / 2 => ToByte(Digit(s[2 * k]) * 16 + Digit(s[2 * k + 1]))))
  }

  /** Narrowing an unsigned byte gives back the signed byte. */
  lemma ToByteOfUnsigned(b: int8)
    ensures ToByte(Unsigned8(b)) == b
  {
    var v := Unsigned8(b);
    assert v % 256 == v;
  }

  /** Widening a narrowed value in byte range gives the value back. */
  lemma UnsignedOfToByte(v: int)
    requires 0 <= v < 256
    ensures Unsigned8(ToByte(v)) == v
  {
    assert v % 256 == v;
  }

  /** Decoding the pair of digits of an unsigned byte gives the byte. */
  lemma DecodePair(b: int8)
    ensures var v := Unsigned8(b);
            ToByte(Digit(HighDigit(v)) * 16 + Digit(LowDigit(v))) == b
  {
    var v := Unsigned8(b);
    var hi, lo := v / 16, v % 16;
    assert v == hi * 16 + lo;
    DigitOfHexArray(hi);
    DigitOfHexArray(lo);
    ToByteOfUnsigned(b);
  }

  lemma EvenLength(n: nat)
    ensures (2 * n) % 2 == 0 && (2 * n) / 2 == n
  {
  }

  lemma HalfOfEven(n: nat)
    requires n % 2 == 0
    ensures n == 2 * (n / 2)
  {
  }

  /** Decoding the digit pairs of some bytes gives the bytes. */
  lemma DecodeHexOf(s: string, bytes: seq<int8>)
    requires HexOf(s, UnsignedBytes(bytes))
    ensures FromHexAsBytes(s) == Ok(bytes)
  {
    assert |s| == 2 * |bytes|;
    EvenLength(|bytes|);
    var r := FromHexAsBytes(s).value;
    forall k | 0 <= k < |bytes|
      ensures r[k] == bytes[k]
    {
      DecodeAt(s, bytes, k);
    }
    assert r == bytes;
  }

  /** The `k`-th digit pair of some bytes decodes to byte `k`. */
  lemma DecodeAt(s: string, bytes: seq<int8>, k: nat)
    requires HexOf(s, UnsignedBytes(bytes)) && k < |bytes|
    ensures ToByte(Digit(s[2 * k]) * 16 + Digit(s[2 * k + 1])) == bytes[k]
  {
    var v := UnsignedBytes(bytes)[k];
    assert s[2 * k] == HighDigit(v) && s[2 * k + 1] == LowDigit(v);
    DecodePair(bytes[k]);
  }

  /** Decoding an encoding gives the bytes back, for every array short
      enough to be encoded. */
  lemma HexRoundTrip(bytes: seq<int8>)
    requires |bytes| < HexOverflowLength
    ensures BytesToHex(bytes).Ok? && FromHexAsBytes(BytesToHex(bytes).value) == Ok(bytes)
  {
    DecodeHexOf(BytesToHex(bytes).value, bytes);
  }

  /** Encoding the byte of a pair of upper-case digits gives the pair. */
  lemma EncodePair(hi: char, lo: char)
    requires IsUpperHexDigit(hi) && IsUpperHexDigit(lo)
    ensures var v := Unsigned8(ToByte(Digit(hi) * 16 + Digit(lo)));
            HighDigit(v) == hi && LowDigit(v) == lo
  {
    HexArrayOfDigit(hi);
    HexArrayOfDigit(lo);
    var dh, dl := Digit(hi), Digit(lo);
    var v := dh * 16 + dl;
    assert 0 <= v < 256;
    UnsignedOfToByte(v);
    assert v / 16 == dh && v % 16 == dl;
  }

  /** A string of upper-case hex digit pairs is the digit pairs of what it
      decodes to. */
  lemma HexOfDecoded(s: string)
    requires |s| % 2 == 0
    requires forall i :: 0 <= i < |s| ==> IsUpperHexDigit(s[i])
    ensures FromHexAsBytes(s).Ok?
    ensures HexOf(s, UnsignedBytes(FromHexAsBytes(s).value))
  {
    var bytes := FromHexAsBytes(s).value;
    var vs := UnsignedBytes(bytes);
    HalfOfEven(|s|);
    forall k | 0 <= k < |bytes|
      ensures s[2 * k] == HighDigit(vs[k]) && s[2 * k + 1] == LowDigit(vs[k])
    {
      var hi, lo := s[2 * k], s[2 * k + 1];
      assert IsUpperHexDigit(hi) && IsUpperHexDigit(lo);
      assert bytes[k] == ToByte(Digit(hi) * 16 + Digit(lo));
      EncodePair(hi, lo);
    }
  }

  /** Encoding a decoded string of upper-case hex digits gives the string
      back. A Java `String` has fewer than 2^31 chars, so its decoding is
      always short enough to be encoded again. */
  lemma HexRoundTripFromText(s: string)
    requires |s| < 0x8000_0000
    requires |s| % 2 == 0
    requires forall i :: 0 <= i < |s| ==> IsUpperHexDigit(s[i])
    ensures BytesToHex(FromHexAsBytes(s).value) == Ok(s)
  {
    HexOfDecoded(s);
    var bytes := FromHexAsBytes(s).value;
    HexOfUnique(BytesToHex(bytes).value, s, UnsignedBytes(bytes));
  }

  // ---------------------------------------------------------------------
  // Byte buffers

  /** A heap `ByteBuffer`: its backing bytes (the capacity), its position
      and its limit. */
  datatype ByteBufferState = ByteBufferState(content: seq<int8>, position: nat, limit: nat)

  type ByteBuffer = b: ByteBufferState | b.position <= b.limit <= |b.content| < 0x8000_0000
    witness ByteBufferState([], 0, 0)

  /** `getBytesFrom(buffer, position, len)`: `len` bytes from `position`. */
  function GetBytesFrom(buffer: ByteBuffer, position: int32, len: int32): (r: Result<seq<int8>>)
    ensures r.Ok? <==> 0 <= len && 0 <= position && position as int + len as int <= buffer.limit
    ensures len < 0 ==> r == Err(NegativeArraySize)
    ensures 0 <= len && (position < 0 || position as int > buffer.limit) ==> r == Err(IllegalArgument)
    ensures (0 <= len && 0 <= position && position as int <= buffer.limit
             && position as int + len as int > buffer.limit) ==> r == Err(BufferUnderflow)
    ensures r.Ok? ==> |r.value| == len as int && r.value == buffer.content[position..position as int + len as int]
  {
    if len < 0 then Err(NegativeArraySize)
    else if position < 0 || position as int > buffer.limit then Err(IllegalArgument)
    else if len as int > buffer.limit - position as int then Err(BufferUnderflow)
    else Ok(buffer.content[position..position as int + len as int])
  }

  /** `toBytes(buffer)`: the bytes up to the limit. */
  function ToBytes(buffer: Option<ByteBuffer>): (r: Result<seq<int8>>)
    ensures buffer.None? <==> r == Err(NullPointer)
    ensures buffer.Some? ==> r == Ok(buffer.value.content[..buffer.value.limit])
  {
    if buffer.None? then Err(NullPointer)
    else GetBytesFrom(buffer.value, 0, buffer.value.limit as int32)
  }

  /** `bufferToHex(buffer)`: the hex of the bytes up to the limit; `null`
      for a `null` buffer. A limit of `HexOverflowLength` or more makes the
      encoding throw, and the exception passes through. */
  function BufferToHex(buffer: Option<ByteBuffer>): (r: Result<Option<string>>)
    ensures buffer.None? ==> r == Ok(None)
    ensures buffer.Some? ==> (r.Ok? <==> buffer.value.limit < HexOverflowLength)
    ensures r.Err? ==> r.error == NegativeArraySize
    ensures buffer.Some? && r.Ok? ==> r.value.Some? && HexOf(r.value.value, UnsignedBytes(ToBytes(buffer).value))
  {
    if buffer.None? then Ok(None)
    else
      var hex := BytesToHex(buffer.value.content[..buffer.value.limit]);
      if hex.Err? then Err(hex.error) else Ok(Some(hex.value))
  }

  /** Decoding the hex of a buffer gives the buffer's readable bytes. */
  lemma BufferHexRoundTrip(buffer: ByteBuffer)
    requires buffer.limit < HexOverflowLength
    ensures BufferToHex(Some(buffer)).Ok?
    ensures FromHexAsBytes(BufferToHex(Some(buffer)).value.value) == ToBytes(Some(buffer))
  {
    HexRoundTrip(buffer.content[..buffer.limit]);
  }

  function Zeros(n: nat): (z: seq<int8>)
    ensures |z| == n && forall i :: 0 <= i < n ==> z[i] == 0
  {
    seq(n, i => 0)
  }

  /** `clone(original)`: a buffer of the same capacity holding the original's
      bytes up to its limit, ready for reading; the original is left
      rewound. */
  function Clone(original: ByteBuffer): (r: (ByteBuffer, ByteBuffer))
    ensures |r.0.content| == |original.content|
    ensures r.0.position == 0 && r.0.limit == original.limit
    ensures forall i :: original.limit <= i < |r.0.content| ==> r.0.content[i] == 0
    ensures r.1 == original.(position := 0)
  {
    var copy := original.content[..original.limit] + Zeros(|original.content| - original.limit);
    (ByteBufferState(copy, 0, original.limit), original.(position := 0))
  }

  /** A clone reads the same bytes as its original. */
  lemma CloneReadsSameBytes(original: ByteBuffer)
    ensures ToBytes(Some(Clone(original).0)) == ToBytes(Some(original))
    ensures BufferToHex(Some(Clone(original).0)) == BufferToHex(Some(original))
  {
    var c := Clone(original).0;
    assert c.content[..c.limit] == original.content[..original.limit];
  }
}

=== FILE: callback_generator.dfy ===
/**
 Callback resolution: the per-class cache of callback methods, the choice
 of the method a `@Callback(name)` refers to, and the chain that turns an
 annotated parameter and the argument passed for it into a bound handle and
 an upcall pointer.

 `CallbackGenerator` fills its cache through `Helpers.getCallbacks`, which
 keeps the methods carrying `io.greenscreens.foreign.annotations.Callback`,
 and then reads `io.greenscreens.foreign.Callback` from them. The
 invocation handler carries a private copy of `initCallback(Class, String)`
 and `getCallbacks` that filters on `io.greenscreens.foreign.Callback`
 itself and keys its cache on the class rather than on `toType` of it (the
 same key, since `toType` is the identity). Both copies are modelled by the
 functions below, parameterised by the annotation type of the filter.
 */
module CallbackGenerator {
  import opened Jvm
  import opened Helpers
  import opened Layouts

  /** Callback methods already collected, per class. */
  type CallbackCache = map<JType, seq<Method>>

  /** Every cached list is the methods of its class carrying `kind`, where
      `methodsOf` is `Class.getMethods`. */
  predicate CacheCoherent(cache: CallbackCache, methodsOf: JType -> seq<Method>, kind: CallbackType) {
    forall t :: t in cache ==> cache[t] == CallbackMethods(methodsOf(t), kind)
  }

  /** A value computed against the cache, with the cache afterwards. */
  datatype Step<T> = Step(value: T, cache: CallbackCache)

  /** `getCallbacks(clazz)`: the cached list for the class, or the list
      collected now and stored. */
  function LookupCallbacks(cache: CallbackCache, methodsOf: JType -> seq<Method>, kind: CallbackType, clazz: JType)
    : (r: Step<seq<Method>>)
    requires CacheCoherent(cache, methodsOf, kind)
    ensures r.value == CallbackMethods(methodsOf(clazz), kind)
    ensures CacheCoherent(r.cache, methodsOf, kind)
    ensures r.cache.Keys == cache.Keys + {clazz}
    ensures clazz in cache ==> r.cache == cache
    ensures forall t :: t in cache ==> t in r.cache && r.cache[t] == cache[t]
  {
    var key := ToType(clazz);
    if key in cache then Step(cache[key], cache)
    else
      var list := CallbackMethods(methodsOf(key), kind);
      Step(list, cache[key := list])
  }

  /** Once a class has been looked up, looking it up again changes nothing. */
  lemma LookupTwice(cache: CallbackCache, methodsOf: JType -> seq<Method>, kind: CallbackType, clazz: JType)
    requires CacheCoherent(cache, methodsOf, kind)
    ensures var first := LookupCallbacks(cache, methodsOf, kind, clazz);
            LookupCallbacks(first.cache, methodsOf, kind, clazz) == first
  {
  }

  /** Whether `m` carries `@Callback(name = name)`. */
  predicate Named(m: Method, name: string) {
    ToCallback(m.annotations) == Some(name)
  }

  /** The index of the first method named `name`, if any. */
  function FirstNamed(list: seq<Method>, name: string): (r: Option<nat>)
    ensures r.None? <==> forall i :: 0 <= i < |list| ==> !Named(list[i], name)
    ensures r.Some? ==> (
      && r.value < |list|
      && Named(list[r.value], name)
      && forall j :: 0 <= j < r.value ==> !Named(list[j], name))
  {
    if |list| == 0 then None
    else if Named(list[0], name) then Some(0)
    else
      var rest := FirstNamed(list[1..], name);
      assert forall i :: 1 <= i < |list| ==> list[i] == list[1..][i - 1];
      if rest.None? then None else Some(rest.value + 1)
  }

  /** The method a `@Callback(name)` refers to: the first one annotated with
      that name, else the first callback method of the class, else none. */
  function ChooseCallback(list: seq<Method>, name: string): (r: Option<Method>)
    ensures r.None? <==> |list| == 0
    ensures r.Some? ==> r.value in list
    ensures (exists i :: 0 <= i < |list| && Named(list[i], name)) ==> (
      exists k :: (&& 0 <= k < |list|
                   && r == Some(list[k])
                   && Named(list[k], name)
                   && forall j :: 0 <= j < k ==> !Named(list[j], name)))
    ensures (|list| > 0 && forall i :: 0 <= i < |list| ==> !Named(list[i], name)) ==> r == Some(list[0])
  {
    var k := FirstNamed(list, name);
    if k.Some? then Some(list[k.value])
    else if |list| > 0 then Some(list[0])
    else None
  }

  /** A class with a single callback method always gets that method, under
      any name. */
  lemma SingleCallbackChosen(m: Method, name: string)
    ensures ChooseCallback([m], name) == Some(m)
  {
  }

  /** The name filter of `initCallback` reads
      `m.getAnnotation(Callback.class).name()` with the same-package
      `Callback`, method by method until one matches. It throws when it
      reaches a method without that annotation before a match. */
  ghost predicate SelectionThrows(list: seq<Method>, name: string) {
    exists k :: 0 <= k < |list| && !Carries(list[k], ForeignCallback)
                && forall j :: 0 <= j < k ==> !Named(list[j], name)
  }

  /** The lazy evaluation of the name filter: the index of the first match,
      none, or the null-pointer failure of the first unannotated method. */
  function ScanNamed(list: seq<Method>, name: string): (r: Result<Option<nat>>)
    ensures r.Err? <==> SelectionThrows(list, name)
    ensures r.Err? ==> r.error == NullPointer
    ensures r.Ok? ==> r.value == FirstNamed(list, name)
  {
    if |list| == 0 then Ok(None)
    else if !Carries(list[0], ForeignCallback) then
      Err(NullPointer)
    else if Named(list[0], name) then Ok(Some(0))
    else
      var rest := ScanNamed(list[1..], name);
      ShiftThrows(list, name);
      if rest.Err? then Err(NullPointer)
      else if rest.value.None? then Ok(None)
      else Ok(Some(rest.value.value + 1))
  }

  /** Past an annotated method without the name, the filter throws exactly
      when it throws on the rest of the list. */
  lemma ShiftThrows(list: seq<Method>, name: string)
    requires |list| > 0 && Carries(list[0], ForeignCallback) && !Named(list[0], name)
    ensures SelectionThrows(list, name) <==> SelectionThrows(list[1..], name)
  {
    if SelectionThrows(list, name) {
      var k :| 0 <= k < |list| && !Carries(list[k], ForeignCallback)
               && forall j :: 0 <= j < k ==> !Named(list[j], name);
      ThrowsInTail(list, name, k);
    }
    if SelectionThrows(list[1..], name) {
      var k :| 0 <= k < |list[1..]| && !Carries(list[1..][k], ForeignCallback)
               && forall j :: 0 <= j < k ==> !Named(list[1..][j], name);
      ThrowsInWhole(list, name, k);
    }
  }

  lemma ThrowsInTail(list: seq<Method>, name: string, k: nat)
    requires 0 < k < |list| && !Carries(list[k], ForeignCallback)
    requires forall j :: 0 <= j < k ==> !Named(list[j], name)
    ensures SelectionThrows(list[1..], name)
  {
    var rest := list[1..];
    assert rest[k - 1] == list[k];
    assert forall j :: 0 <= j < k - 1 ==> rest[j] == list[j + 1];
  }

  lemma ThrowsInWhole(list: seq<Method>, name: string, k: nat)
    requires |list| > 0 && !Named(list[0], name)
    requires k < |list| - 1 && !Carries(list[1..][k], ForeignCallback)
    requires forall j :: 0 <= j < k ==> !Named(list[1..][j], name)
    ensures SelectionThrows(list, name)
  {
    assert list[k + 1] == list[1..][k];
    assert forall j :: 1 <= j < k + 1 ==> list[j] == list[1..][j - 1];
  }

  /** `initCallback(clazz, name)`'s choice: a null-pointer failure when the
      name filter throws, otherwise the chosen method. */
  function SelectCallback(list: seq<Method>, name: string): (r: Result<Option<Method>>)
    ensures r.Err? <==> SelectionThrows(list, name)
    ensures r.Err? ==> r.error == NullPointer
    ensures r.Ok? ==> r.value == ChooseCallback(list, name)
  {
    var k := ScanNamed(list, name);
    if k.Err? then Err(k.error)
    else if k.value.Some? then Ok(Some(list[k.value.value]))
    else if |list| > 0 then Ok(Some(list[0]))
    else Ok(None)
  }

  /** A list of methods that all carry the same-package `Callback` never
      makes the name filter throw. */
  lemma AnnotatedSelectionSucceeds(list: seq<Method>, name: string)
    requires forall i :: 0 <= i < |list| ==> Carries(list[i], ForeignCallback)
    ensures SelectCallback(list, name) == Ok(ChooseCallback(list, name))
  {
  }

  /** The invocation handler's copy filters on the same annotation type it
      reads, so its selection never throws. */
  lemma ForeignSelectionSucceeds(methods: seq<Method>, name: string)
    ensures SelectCallback(CallbackMethods(methods, ForeignCallback), name).Ok?
  {
    CallbackMethodsCarry(methods, ForeignCallback);
    AnnotatedSelectionSucceeds(CallbackMethods(methods, ForeignCallback), name);
  }

  /** `lookup.unreflect` of the selected method, if there is one. */
  function UnreflectSelected(m: Option<Method>): (r: Option<MethodHandle>)
    ensures r.None? <==> m.None?
    ensures r.Some? ==> r.value == Unreflected(m.value)
  {
    if m.None? then None else Some(Unreflected(m.value))
  }

  /** `initCallback(clazz, name)`: the selected method, unreflected, from
      the class's methods carrying `kind`. */
  function CallbackByName(cache: CallbackCache, methodsOf: JType -> seq<Method>, kind: CallbackType,
                          clazz: JType, name: string)
    : (r: Step<Result<Option<MethodHandle>>>)
    requires CacheCoherent(cache, methodsOf, kind)
    ensures CacheCoherent(r.cache, methodsOf, kind)
    ensures r.cache == LookupCallbacks(cache, methodsOf, kind, clazz).cache
    ensures var list := CallbackMethods(methodsOf(clazz), kind);
            && (r.value.Err? <==> SelectionThrows(list, name))
            && (r.value.Err? ==> r.value.error == NullPointer)
            && (r.value.Ok? ==> r.value.value == UnreflectSelected(ChooseCallback(list, name)))
            && (r.value.Ok? ==> (r.value.value.None? <==> list == []))
    ensures kind == ForeignCallback ==> r.value.Ok?
    ensures r.value.Ok? && r.value.value.Some? ==> (
      && r.value.value.value.Unreflected?
      && Carries(r.value.value.value.unreflected, kind)
      && r.value.value.value.unreflected in methodsOf(clazz))
  {
    var found := LookupCallbacks(cache, methodsOf, kind, clazz);
    var sel := SelectCallback(found.value, name);
    ForeignSelectionSucceeds(methodsOf(clazz), name);
    Step(if sel.Err? then Err(sel.error) else Ok(UnreflectSelected(sel.value)), found.cache)
  }

  /** `initCallback(clazz, callback)`: a `null` annotation gives no handle
      and leaves the cache alone. `CallbackGenerator`'s cache holds the
      methods `Helpers.getCallbacks` keeps. */
  function CallbackByAnnotation(cache: CallbackCache, methodsOf: JType -> seq<Method>, clazz: JType,
                                callback: Option<string>)
    : (r: Step<Result<Option<MethodHandle>>>)
    requires CacheCoherent(cache, methodsOf, MarkerCallback)
    ensures CacheCoherent(r.cache, methodsOf, MarkerCallback)
    ensures callback.None? ==> r == Step(Ok(None), cache)
    ensures callback.Some? ==> r == CallbackByName(cache, methodsOf, MarkerCallback, clazz, callback.value)
  {
    if callback.None? then Step(Ok(None), cache)
    else CallbackByName(cache, methodsOf, MarkerCallback, clazz, callback.value)
  }

  /** `initCallback(param)`: only a parameter annotated `@Callback` gets a
      handle, taken from the methods of the parameter's class that
      `Helpers.getCallbacks` keeps. */
  function CallbackForParam(cache: CallbackCache, methodsOf: JType -> seq<Method>, p: Param)
    : (r: Step<Result<Option<MethodHandle>>>)
    requires CacheCoherent(cache, methodsOf, MarkerCallback)
    ensures CacheCoherent(r.cache, methodsOf, MarkerCallback)
    ensures ToCallback(p.annotations).None? ==> r == Step(Ok(None), cache)
    ensures var cb := ToCallback(p.annotations);
            var list := CallbackMethods(methodsOf(p.ptype), MarkerCallback);
            && (r.value.Err? <==> cb.Some? && SelectionThrows(list, cb.value))
            && (r.value.Err? ==> r.value.error == NullPointer)
            && (r.value.Ok? && r.value.value.Some? <==>
                  cb.Some? && list != [] && !SelectionThrows(list, cb.value))
            && (r.value.Ok? && cb.Some? ==> r.value.value == UnreflectSelected(ChooseCallback(list, cb.value)))
    ensures ToCallback(p.annotations).Some?
            ==> r == CallbackByName(cache, methodsOf, MarkerCallback, p.ptype, ToCallback(p.annotations).value)
  {
    var cb := ToCallback(p.annotations);
    if cb.Some? then CallbackByAnnotation(cache, methodsOf, p.ptype, cb) else Step(Ok(None), cache)
  }

  /** `initCallback(param, owner)`: the handle bound to the argument object. */
  function BoundCallback(cache: CallbackCache, methodsOf: JType -> seq<Method>, p: Param, owner: Value)
    : (r: Step<Result<Option<MethodHandle>>>)
    requires CacheCoherent(cache, methodsOf, MarkerCallback)
    ensures CacheCoherent(r.cache, methodsOf, MarkerCallback)
    ensures var h := CallbackForParam(cache, methodsOf, p);
            && r.cache == h.cache
            && (h.value.Err? ==> r.value == Err(h.value.error))
            && (h.value == Ok(None) ==> r.value == Ok(None))
            && (h.value.Ok? && h.value.value.Some? ==>
                  && (r.value.Ok? <==> BindTo(h.value.value.value, owner).Ok?)
                  && (r.value.Ok? ==> r.value.value == Some(BindTo(h.value.value.value, owner).value)))
  {
    var h := CallbackForParam(cache, methodsOf, p);
    if h.value.Err? then Step(Err(h.value.error), h.cache)
    else if h.value.value.None? then Step(Ok(None), h.cache)
    else
      var b := BindTo(h.value.value.value, owner);
      Step(if b.Err? then Err(b.error) else Ok(Some(b.value)), h.cache)
  }

  /** `initCallback(param, owner, arena)`: the bound handle as an upcall
      pointer. */
  function CallbackPointer(cache: CallbackCache, methodsOf: JType -> seq<Method>, p: Param, owner: Value)
    : (r: Step<Result<Option<Pointer>>>)
    requires CacheCoherent(cache, methodsOf, MarkerCallback)
    ensures CacheCoherent(r.cache, methodsOf, MarkerCallback)
    ensures var b := BoundCallback(cache, methodsOf, p, owner);
            && r.cache == b.cache
            && (b.value.Err? ==> r.value == Err(b.value.error))
            && (b.value.Ok? ==> r.value == ToPointer(b.value.value))
  {
    var b := BoundCallback(cache, methodsOf, p, owner);
    Step(if b.value.Err? then Err(b.value.error) else ToPointer(b.value.value), b.cache)
  }

  /** A callback interface written against the same-package `@Callback`
      (as the repository's own callback interfaces are) has no method that
      `Helpers.getCallbacks` keeps, so its parameter gets a `null` pointer. */
  lemma SamePackageCallbackIsIgnored(owner: Value)
    ensures var m := Method(ClassType("IStringCallback"), "callback", VoidType,
                            [Param(MemorySegmentType, []), Param(MemorySegmentType, [])],
                            [CallbackAnnotation("")]);
            var p := Param(ClassType("IStringCallback"), [CallbackAnnotation("")]);
            CallbackPointer(map[], (t: JType) => [m], p, owner).value == Ok(None)
  {
    var m := Method(ClassType("IStringCallback"), "callback", VoidType,
                    [Param(MemorySegmentType, []), Param(MemorySegmentType, [])],
                    [CallbackAnnotation("")]);
    assert !Carries(m, MarkerCallback);
    assert CallbackMethods([m], MarkerCallback) == [];
  }

  /** A callback method carrying only `annotations.Callback` is kept by
      `Helpers.getCallbacks`, and reading its same-package `@Callback` name
      then throws a null-pointer exception. */
  lemma MarkerOnlyCallbackThrows(owner: Value)
    ensures var m := Method(ClassType("ICallback"), "callback", VoidType, [], [MarkerCallbackAnnotation]);
            var p := Param(ClassType("ICallback"), [CallbackAnnotation("")]);
            CallbackPointer(map[], (t: JType) => [m], p, owner).value == Err(NullPointer)
  {
    var m := Method(ClassType("ICallback"), "callback", VoidType, [], [MarkerCallbackAnnotation]);
    assert Carries(m, MarkerCallback) && !Carries(m, ForeignCallback);
    assert CallbackMethods([m], MarkerCallback) == [m];
    assert SelectionThrows([m], "");
  }

  /** Binding the receiver of an unreflected callback method leaves exactly
      the method's declared signature. */
  lemma BoundCallbackSignature(m: Method, receiver: Value)
    requires !IsPrimitive(m.owner)
    ensures BindTo(Unreflected(m), receiver).Ok?
    ensures TypeOf(BindTo(Unreflected(m), receiver).value) == MethodType(m.ret, ParamTypes(m.params))
  {
    assert ([m.owner] + ParamTypes(m.params))[1..] == ParamTypes(m.params);
  }

  /** Unlike a downcall descriptor, an upcall pointer's descriptor gives
      every parameter of the callback method its own layout. */
  lemma CallbackPointerDescriptor(m: Method, receiver: Value)
    requires !IsPrimitive(m.owner)
    requires NoVoidParameter(m)
    ensures var p := ToPointer(Some(BindTo(Unreflected(m), receiver).value));
            && p.Ok? && p.value.Some?
            && p.value.value.descriptor.result == ToLayout(m.ret)
            && |p.value.value.descriptor.args| == |m.params|
            && forall i :: 0 <= i < |m.params| ==> Some(p.value.value.descriptor.args[i]) == ToLayout(m.params[i].ptype)
  {
    BoundCallbackSignature(m, receiver);
    var h := BindTo(Unreflected(m), receiver).value;
    var mt := TypeOf(h);
    assert forall i :: 0 <= i < |mt.ptypes| ==> ToLayout(mt.ptypes[i]).Some?;
  }
}

=== FILE: converters.dfy ===
/**
 The `reformat` pair of the converters: a primitive Java array is copied into
 a fresh native segment before a call, and a segment is read back into a
 primitive array afterwards. Boolean arrays travel as one byte per element.
 */
module Converters {
  import opened Jvm
  import opened Helpers
  import opened NativeMemory

  /** What reading a segment back produces: a primitive array, or the
      segment itself (possibly `null`) for every non-primitive class. */
  datatype Converted = ArrayResult(elements: PrimArray) | SegmentResult(segment: Option<Segment>)

  const UnsupportedDataType := "Unsupported data type"

  /** `reformat(type, data, arena)` into native memory. A `null` array is
      replaced by an empty one; an array of another kind fails the cast;
      booleans are packed to bytes first. */
  function ReformatOut(t: JType, data: Option<PrimArray>): (r: Result<Segment>)
    ensures !t.Primitive? ==> r == Err(Unsupported(UnsupportedDataType))
    ensures t.Primitive? ==> (r.Ok? <==> data.None? || Kind(data.value) == t.scalar)
    ensures t.Primitive? && r.Err? ==> r.error == ClassCast
    ensures r.Ok? ==> |r.value| == ElementSize(t.scalar) * (if data.None? then 0 else Length(data.value))
  {
    if !t.Primitive? then Err(Unsupported(UnsupportedDataType))
    else
      var s := t.scalar;
      var arr := if data.None? then EmptyArray(s) else data.value;
      if Kind(arr) != s then Err(ClassCast)
      else if s == Boolean then Ok(AllocateArray(ByteArray(ToBytes(arr.bits))))
      else Ok(AllocateArray(arr))
  }

  /** `reformat(type, segment, arena)` out of native memory. A primitive
      class reads the segment as an array of that kind (booleans through a
      byte array); any other class returns the segment unchanged. */
  function ReformatIn(t: JType, data: Option<Segment>): (r: Result<Converted>)
    ensures !t.Primitive? ==> r == Ok(SegmentResult(data))
    ensures t.Primitive? && data.None? ==> r == Err(NullPointer)
    ensures t.Primitive? && data.Some? ==> (r.Ok? <==> |data.value| % ElementSize(t.scalar) == 0)
    ensures t.Primitive? && data.Some? && r.Err? ==> r.error == IllegalState
    ensures t.Primitive? && r.Ok? ==> (
      && r.value.ArrayResult?
      && Kind(r.value.elements) == t.scalar
      && Length(r.value.elements) == |data.value| / ElementSize(t.scalar))
  {
    if !t.Primitive? then Ok(SegmentResult(data))
    else if data.None? then Err(NullPointer)
    else
      var s := t.scalar;
      if s == Boolean then
        var raw := ToArray(Byte, data.value).value;
        Ok(ArrayResult(BooleanArray(ToBoolean(raw.bytes))))
      else
        var a := ToArray(s, data.value);
        if a.Err? then Err(a.error) else Ok(ArrayResult(a.value))
  }

  /** An array of the declared kind survives the trip through native memory;
      a `null` array comes back empty. */
  lemma ReformatRoundTrip(s: Scalar, data: Option<PrimArray>)
    requires data.None? || Kind(data.value) == s
    ensures ReformatOut(Primitive(s), data).Ok?
    ensures ReformatIn(Primitive(s), Some(ReformatOut(Primitive(s), data).value))
         == Ok(ArrayResult(if data.None? then EmptyArray(s) else data.value))
  {
    var arr := if data.None? then EmptyArray(s) else data.value;
    if s == Boolean {
      ToArrayOfAllocate(ByteArray(ToBytes(arr.bits)));
      BooleanPackingRoundTrip(arr.bits);
    } else {
      ToArrayOfAllocate(arr);
    }
  }

  /** Reading a segment of a non-boolean kind and writing it back reproduces
      the segment byte for byte. */
  lemma SegmentRoundTrip(s: Scalar, seg: Segment)
    requires s != Boolean && |seg| % ElementSize(s) == 0
    ensures ReformatIn(Primitive(s), Some(seg)).Ok?
    ensures ReformatOut(Primitive(s), Some(ReformatIn(Primitive(s), Some(seg)).value.elements)) == Ok(seg)
  {
    AllocateOfToArray(s, seg);
  }

  /** A boolean segment read back and written again keeps only the low bit
      of each byte: every byte becomes 0 or 1. */
  lemma BooleanSegmentNormalized(seg: Segment)
    ensures ReformatIn(Primitive(Boolean), Some(seg)).Ok?
    ensures var out := ReformatOut(Primitive(Boolean), Some(ReformatIn(Primitive(Boolean), Some(seg)).value.elements));
            && out.Ok? && |out.value| == |seg|
            && forall i :: 0 <= i < |seg| ==> out.value[i] as int == seg[i] as int % 2
  {
    var raw := ToArray(Byte, seg).value;
    var bits := ToBoolean(raw.bytes);
    var bytes := ToBytes(bits);
    AllocateOfToArray(Byte, seg);
    assert forall i :: 0 <= i < |bytes| ==> bytes[i] as int == LowBit(raw.bytes[i]);
    StoredLowBits(raw, bytes, seg);
  }

  /** Storing the low bits of a stored byte array keeps the parity of each
      stored byte. */
  lemma StoredLowBits(raw: PrimArray, bytes: seq<int8>, seg: Segment)
    requires raw.ByteArray? && AllocateArray(raw) == seg
    requires |bytes| == |raw.bytes|
    requires forall i :: 0 <= i < |bytes| ==> bytes[i] as int == LowBit(raw.bytes[i])
    ensures |AllocateArray(ByteArray(bytes))| == |seg|
    ensures forall i :: 0 <= i < |seg| ==> AllocateArray(ByteArray(bytes))[i] as int == seg[i] as int % 2
  {
    var out := AllocateArray(ByteArray(bytes));
    forall i | 0 <= i < |seg|
      ensures out[i] as int == seg[i] as int % 2
    {
      StoredByte(raw, i);
      StoredByte(ByteArray(bytes), i);
      ByteSlotParity(raw.bytes[i], bytes[i]);
    }
  }

  /** One byte slot of the normalisation: a byte holding the low bit of
      `b` is stored as the parity of `b`'s stored form. */
  lemma ByteSlotParity(b: int8, c: int8)
    requires c as int == LowBit(b)
    ensures ToUnsigned(c as int, 1) == ToUnsigned(b as int, 1) % 2
  {
    assert Pow256(1) == 256 && Half(1) == 128;
  }

  /** Byte `i` of a stored byte array is the two's-complement form of
      element `i`. */
  lemma StoredByte(a: PrimArray, i: nat)
    requires a.ByteArray? && i < |a.bytes|
    ensures AllocateArray(a)[i] as int == ToUnsigned(a.bytes[i] as int, 1)
  {
    var ws := Words(a);
    StoredWord(ws, i);
  }

  lemma {:induction false} StoredWord(ws: seq<nat>, i: nat)
    requires WordsFit(1, ws) && i < |ws|
    ensures EncodeWords(1, ws)[i] as int == ws[i]
  {
    if i > 0 {
      assert EncodeWords(1, ws) == EncodeWord(1, ws[0]) + EncodeWords(1, ws[1..]);
      StoredWord(ws[1..], i - 1);
    }
  }
}

=== FILE: foreign_generator.dfy ===
/**
 Generation of downcall handles for the methods of a library interface:
 which methods qualify, how each is linked to the exported native symbol of
 the same name, and the method-to-handle table built for an interface.
 */
module ForeignGenerator {
  import opened Jvm
  import opened Helpers
  import opened Layouts

  /** The classes a foreign signature may use. */
  const AllowedTypes: seq<JType> := [
    Primitive(Byte), Primitive(Boolean), Primitive(Char), Primitive(Int),
    Primitive(Long), Primitive(Float), Primitive(Double), Primitive(Short),
    Boxed(Byte), Boxed(Boolean), Boxed(Char), Boxed(Int),
    Boxed(Long), Boxed(Float), Boxed(Double), Boxed(Short),
    StringType, MethodHandleType, MemorySegmentType, VoidType, VoidBoxed,
    ByteBufferType, CharBufferType
  ]

  /** `isAllowed(Class)`: membership in the allowed list. Arrays and all
      other classes, annotated or not, are refused. */
  function IsAllowedType(t: JType): (r: bool)
    ensures r <==> t in AllowedTypes
    ensures r <==> !(t.ArrayType? || t.ClassType?)
  {
    AllowedTypesCover(t);
    t in AllowedTypes
  }

  /** The position of a scalar in each half of the primitive block of
      `AllowedTypes`. */
  function ScalarIndex(s: Scalar): (i: nat)
    ensures i < 8 && AllowedTypes[i] == Primitive(s) && AllowedTypes[8 + i] == Boxed(s)
  {
    match s
    case Byte => 0
    case Boolean => 1
    case Char => 2
    case Int => 3
    case Long => 4
    case Float => 5
    case Double => 6
    case Short => 7
  }

  /** The allowed list is exactly the classes that are neither arrays nor
      other classes. */
  lemma AllowedTypesCover(t: JType)
    ensures t in AllowedTypes <==> !(t.ArrayType? || t.ClassType?)
  {
    match t
    case Primitive(s) => assert AllowedTypes[ScalarIndex(s)] == t;
    case Boxed(s) => assert AllowedTypes[8 + ScalarIndex(s)] == t;
    case StringType => assert AllowedTypes[16] == t;
    case MethodHandleType => assert AllowedTypes[17] == t;
    case MemorySegmentType => assert AllowedTypes[18] == t;
    case VoidType => assert AllowedTypes[19] == t;
    case VoidBoxed => assert AllowedTypes[20] == t;
    case ByteBufferType => assert AllowedTypes[21] == t;
    case CharBufferType => assert AllowedTypes[22] == t;
    case ArrayType(_) =>
      assert forall i :: 0 <= i < |AllowedTypes| ==> !AllowedTypes[i].ArrayType?;
    case ClassType(_) =>
      assert forall i :: 0 <= i < |AllowedTypes| ==> !AllowedTypes[i].ClassType?;
  }

  /** What `isAllowed(Method)` computes per parameter: whether its class is
      allowed or it carries `@Callback`. */
  predicate ParameterAccepted(p: Param) {
    IsAllowedType(ToType(p.ptype)) || ToCallback(p.annotations).Some?
  }

  /** The stream of per-parameter verdicts. It is mapped, not filtered, so
      it has one entry per parameter whatever the verdicts are. */
  function ParameterChecks(ps: seq<Param>): (r: seq<bool>)
    ensures |r| == |ps|
    ensures forall i :: 0 <= i < |ps| ==> (r[i] <==> ParameterAccepted(ps[i]))
  {
    seq(|ps|, i requires 0 <= i < |ps| => ParameterAccepted(ps[i]))
  }

  /** `isAllowed(Method)`: the return type must be allowed, and the count of
      the verdict stream must equal the parameter count. Because the count
      does not depend on the verdicts, the parameters never disqualify a
      method. */
  function IsAllowedMethod(m: Method): (r: bool)
    ensures r <==> IsAllowedType(m.ret)
    ensures r <==> !(m.ret.ArrayType? || m.ret.ClassType?)
  {
    IsAllowedType(ToType(m.ret)) && |ParameterChecks(m.params)| == |m.params|
  }

  /** The check the method filter evidently intends: every parameter is
      allowed or annotated. */
  predicate AllParametersAccepted(m: Method) {
    forall i :: 0 <= i < |m.params| ==> ParameterAccepted(m.params[i])
  }

  /** A method returning `int` and taking an `Object` (neither allowed nor
      annotated) passes the filter. */
  lemma DisallowedParameterIsAccepted()
    ensures var m := Method(ClassType("Lib"), "f", Primitive(Int),
                            [Param(ClassType("java.lang.Object"), [])], []);
            IsAllowedMethod(m) && !AllParametersAccepted(m)
  {
    var m := Method(ClassType("Lib"), "f", Primitive(Int),
                    [Param(ClassType("java.lang.Object"), [])], []);
    assert !ParameterAccepted(m.params[0]);
  }

  /** `allowed(type)`: the qualifying methods, in declaration order. */
  function Allowed(methods: seq<Method>): (r: seq<Method>)
    ensures |r| <= |methods|
    ensures forall m :: m in r <==> m in methods && IsAllowedMethod(m)
  {
    if |methods| == 0 then []
    else
      var rest := Allowed(methods[1..]);
      assert forall m :: m in methods <==> m == methods[0] || m in methods[1..];
      if IsAllowedMethod(methods[0]) then [methods[0]] + rest else rest
  }

  lemma {:induction false} AllowedAppend(a: seq<Method>, b: seq<Method>)
    ensures Allowed(a + b) == Allowed(a) + Allowed(b)
  {
    if |a| > 0 {
      assert (a + b)[1..] == a[1..] + b;
      AllowedAppend(a[1..], b);
    } else {
      assert a + b == b;
    }
  }

  /** A linked downcall: the native symbol, the descriptor it was linked
      with, and the arity of the `Object[]` spreader (`None` for a method
      without parameters, whose handle is used as linked). */
  datatype Downcall = Downcall(symbol: string, descriptor: FunctionDescriptor, spread: Option<nat>)

  /** `build(lookup, method)`: look the method's name up among the library's
      exported symbols, describe it, link it, and spread its arguments. */
  function Build(exports: set<string>, m: Method): (r: Result<Downcall>)
    ensures m.name !in exports ==> r == Err(NoSuchElement)
    ensures m.name in exports ==> (r.Ok? <==> MethodDescriptor(m).Ok?)
    ensures r.Ok? ==> (
      && r.value.symbol == m.name
      && MethodDescriptor(m) == Ok(r.value.descriptor)
      && (r.value.spread.Some? <==> |m.params| > 0)
      && (r.value.spread.Some? ==> r.value.spread.value == |m.params|))
  {
    if m.name !in exports then Err(NoSuchElement)
    else
      var d := MethodDescriptor(m);
      if d.Err? then Err(d.error)
      else
        var count := |m.params|;
        Ok(Downcall(m.name, d.value, if count == 0 then None else Some(count)))
  }

  /** `generate(lookup, type)`: a handle for every allowed method, or the
      first failure. */
  function Generate(exports: set<string>, methods: seq<Method>): (r: Result<map<Method, Downcall>>)
    ensures r.Ok? ==> r.value.Keys == set m | m in methods && IsAllowedMethod(m)
    ensures r.Ok? ==> forall m :: m in r.value ==> Build(exports, m) == Ok(r.value[m])
    ensures r.Ok? <==> forall m :: m in methods && IsAllowedMethod(m) ==> Build(exports, m).Ok?
  {
    PutAll(exports, Allowed(methods), map[])
  }

  /** The `forEach(put)` loop over the allowed methods. */
  function PutAll(exports: set<string>, ms: seq<Method>, acc: map<Method, Downcall>): (r: Result<map<Method, Downcall>>)
    decreases |ms|
    requires forall m :: m in acc ==> Build(exports, m) == Ok(acc[m])
    ensures r.Ok? ==> r.value.Keys == acc.Keys + set m | m in ms
    ensures r.Ok? ==> forall m :: m in r.value ==> Build(exports, m) == Ok(r.value[m])
    ensures r.Ok? <==> forall m :: m in ms ==> Build(exports, m).Ok?
  {
    if |ms| == 0 then Ok(acc)
    else
      var b := Build(exports, ms[0]);
      assert forall m :: m in ms <==> m == ms[0] || m in ms[1..];
      if b.Err? then Err(b.error)
      else PutAll(exports, ms[1..], acc[ms[0] := b.value])
  }

  /** Only a missing symbol stops generation: a library exporting every
      allowed method of a Java interface yields a table. */
  lemma GenerateSucceeds(exports: set<string>, methods: seq<Method>)
    requires forall m :: m in methods ==> NoVoidParameter(m)
    requires forall m :: m in methods && IsAllowedMethod(m) ==> m.name in exports
    ensures Generate(exports, methods).Ok?
  {
    forall m | m in methods && IsAllowedMethod(m)
      ensures Build(exports, m).Ok?
    {
      assert MethodDescriptor(m).Ok?;
    }
  }
}

=== FILE: helpers.dfy ===
/**
 The engine's generic helpers (`Helpers`, duplicated in `Converters` and
 `ExternalFactory`): void detection, the array-type mapping, string
 normalisation, boolean-array packing, `toPrimitive`, NUL-terminated UTF-16
 strings, annotation lookup and the callback-method filter.
 */
module Helpers {
  import opened Jvm

  /** `isVoid`: the primitive `void` or its wrapper class `Void`. */
  predicate IsVoid(t: JType) {
    t == VoidType || t == VoidBoxed
  }

  /** `toType` as written: an array class is mapped to
      `type.arrayType().componentType()`, which is the array class itself,
      so the mapping is the identity. */
  function ToType(t: JType): (r: JType)
    ensures r == t
  {
    if IsArray(t) then ComponentTypeOf(ArrayTypeOf(t)).value else t
  }

  predicate IsArray(t: JType) {
    t.ArrayType?
  }

  // ---------------------------------------------------------------------
  // String normalisation

  /** The characters `String.trim` strips: every code point up to U+0020. */
  predicate IsBlank(c: char) {
    c <= ' '
  }

  predicate AllBlank(s: string) {
    forall i :: 0 <= i < |s| ==> IsBlank(s[i])
  }

  /** Neither end of `s` is a blank character. */
  predicate Trimmed(s: string) {
    |s| == 0 || (!IsBlank(s[0]) && !IsBlank(s[|s| - 1]))
  }

  function TrimLeading(s: string): (r: string)
    ensures |r| <= |s| && r == s[|s| - |r|..]
    ensures AllBlank(s[..|s| - |r|])
    ensures |r| == 0 || !IsBlank(r[0])
  {
    if |s| > 0 && IsBlank(s[0]) then
      var r := TrimLeading(s[1..]);
      assert s[1..][..|s[1..]| - |r|] == s[1..|s| - |r|];
      r
    else s
  }

  function TrimTrailing(s: string): (r: string)
    ensures |r| <= |s| && r == s[..|r|]
    ensures AllBlank(s[|r|..])
    ensures |r| == 0 || !IsBlank(r[|r| - 1])
  {
    if |s| > 0 && IsBlank(s[|s| - 1]) then
      var r := TrimTrailing(s[..|s| - 1]);
      assert s[..|s| - 1][|r|..] == s[|r|..|s| - 1];
      r
    else s
  }

  /** `s` is `x` with blank characters added on either side. */
  ghost predicate BlankPadded(s: string, x: string) {
    exists pre, post :: s == pre + x + post && AllBlank(pre) && AllBlank(post)
  }

  /** `String.trim`: `s` with its blank prefix and blank suffix removed. */
  function Trim(s: string): (r: string)
    ensures Trimmed(r)
    ensures BlankPadded(s, r)
  {
    var l := TrimLeading(s);
    var r := TrimTrailing(l);
    TrimRemovesPadding(s);
    assert |r| > 0 ==> r[0] == l[0];
    r
  }

  lemma TrimRemovesPadding(s: string)
    ensures BlankPadded(s, TrimTrailing(TrimLeading(s)))
  {
    var l := TrimLeading(s);
    PaddingWitness(s, l, TrimTrailing(l));
  }

  /** A blank prefix cut off `s`, then a blank suffix cut off the rest,
      leaves a string that `s` pads. */
  lemma PaddingWitness(s: string, l: string, r: string)
    requires |l| <= |s| && l == s[|s| - |l|..] && AllBlank(s[..|s| - |l|])
    requires |r| <= |l| && r == l[..|r|] && AllBlank(l[|r|..])
    ensures BlankPadded(s, r)
  {
    var pre, post := s[..|s| - |l|], l[|r|..];
    assert l == r + post;
    assert s == pre + l;
    assert s == pre + r + post;
  }

  /** `normalize`: `null` becomes the empty string, anything else is trimmed:
      the result is the trimmed core the input pads (unique, by
      `TrimOfPadded`). */
  function Normalize(val: Option<string>): (r: string)
    ensures val.None? ==> r == ""
    ensures val.Some? ==> BlankPadded(val.value, r)
    ensures Trimmed(r)
  {
    if val.None? then "" else Trim(val.value)
  }

  /** Trimming removes exactly the blank padding: a string with non-blank
      ends surrounded by blanks trims back to itself. */
  lemma {:induction false} TrimOfPadded(pre: string, x: string, post: string)
    requires AllBlank(pre) && AllBlank(post) && Trimmed(x)
    ensures Trim(pre + x + post) == x
  {
    assert pre + x + post == pre + (x + post);
    if |x| == 0 {
      assert pre + x + post == pre + post;
      AllBlankTrimsToEmpty(pre + post);
    } else {
      assert (x + post)[0] == x[0];
      TrimLeadingOfPadded(pre, x + post);
      TrimTrailingOfPadded(x, post);
    }
  }

  lemma AllBlankTrimsToEmpty(s: string)
    requires AllBlank(s)
    ensures Trim(s) == []
  {
  }

  lemma {:induction false} TrimLeadingOfPadded(pre: string, rest: string)
    requires AllBlank(pre)
    requires |rest| == 0 || !IsBlank(rest[0])
    ensures TrimLeading(pre + rest) == rest
    decreases |pre|
  {
    if |pre| > 0 {
      assert (pre + rest)[1..] == pre[1..] + rest;
      TrimLeadingOfPadded(pre[1..], rest);
    } else {
      assert pre + rest == rest;
    }
  }

  lemma {:induction false} TrimTrailingOfPadded(x: string, post: string)
    requires AllBlank(post)
    requires |x| == 0 || !IsBlank(x[|x| - 1])
    ensures TrimTrailing(x + post) == x
    decreases |post|
  {
    if |post| > 0 {
      assert (x + post)[..|x + post| - 1] == x + post[..|post| - 1];
      TrimTrailingOfPadded(x, post[..|post| - 1]);
    } else {
      assert x + post == x;
    }
  }

  /** A string with non-blank ends trims to itself. */
  lemma TrimOfTrimmed(s: string)
    requires Trimmed(s)
    ensures Trim(s) == s
  {
    TrimLeadingOfTrimmed(s);
    TrimTrailingOfTrimmed(s);
  }

  lemma TrimLeadingOfTrimmed(s: string)
    requires Trimmed(s)
    ensures TrimLeading(s) == s
  {
  }

  lemma TrimTrailingOfTrimmed(s: string)
    requires Trimmed(s)
    ensures TrimTrailing(s) == s
  {
  }

  /** Trimming twice is trimming once. */
  lemma TrimIdempotent(s: string)
    ensures Trim(Trim(s)) == Trim(s)
  {
    TrimOfTrimmed(Trim(s));
  }

  /** `normalize` is idempotent. */
  lemma NormalizeIdempotent(val: Option<string>)
    ensures Normalize(Some(Normalize(val))) == Normalize(val)
  {
    TrimIdempotent(if val.None? then "" else val.value);
  }

  // ---------------------------------------------------------------------
  // Boolean arrays

  /** `b & 0x01` on a sign-extended byte. */
  function LowBit(b: int8): (r: int)
    ensures r == 0 || r == 1
  {
    (b as int) % 2
  }

  /** `toBoolean`: one flag per byte, set when the byte's low bit is 1;
      filled from the last index down, as the Java loop does. */
  function ToBoolean(bytes: seq<int8>): (bits: seq<bool>)
    ensures |bits| == |bytes|
    ensures forall i :: 0 <= i < |bytes| ==> (bits[i] <==> LowBit(bytes[i]) == 1)
  {
    if |bytes| == 0 then []
    else ToBoolean(bytes[..|bytes| - 1]) + [LowBit(bytes[|bytes| - 1]) == 1]
  }

  /** `toBytes`: one byte per flag, 1 for `true` and 0 for `false`. */
  function ToBytes(bits: seq<bool>): (bytes: seq<int8>)
    ensures |bytes| == |bits|
    ensures forall i :: 0 <= i < |bits| ==> bytes[i] == (if bits[i] then 1 else 0)
  {
    if |bits| == 0 then []
    else ToBytes(bits[..|bits| - 1]) + [if bits[|bits| - 1] then 1 else 0]
  }

  /** Packing then unpacking gives back the flags, the empty array included. */
  lemma BooleanPackingRoundTrip(bits: seq<bool>)
    ensures ToBoolean(ToBytes(bits)) == bits
  {
  }

  /** Unpacking reads only the low bit of each byte: two byte arrays unpack
      to the same flags exactly when they agree in length and low bits. */
  lemma ToBooleanReadsLowBitOnly(a: seq<int8>, b: seq<int8>)
    ensures ToBoolean(a) == ToBoolean(b)
        <==> |a| == |b| && forall i :: 0 <= i < |a| ==> LowBit(a[i]) == LowBit(b[i])
  {
    var ta, tb := ToBoolean(a), ToBoolean(b);
    if ta == tb {
      forall i | 0 <= i < |a|
        ensures LowBit(a[i]) == LowBit(b[i])
      {
        assert ta[i] == tb[i];
      }
    }
    if |a| == |b| && forall i :: 0 <= i < |a| ==> LowBit(a[i]) == LowBit(b[i]) {
      assert forall i :: 0 <= i < |ta| ==> ta[i] == tb[i];
    }
  }

  // ---------------------------------------------------------------------
  // Unwrapping through `Object`

  /** Returning a value from a method whose return type is `Object`: the
      boxing conversion of section 5.1.7 of the Java Language Specification
      turns a primitive into its wrapper; a reference is returned as is. */
  function AsObject(v: Value): (r: Value)
    ensures !r.PrimitiveValue?
    ensures v.PrimitiveValue? ==> r == BoxedValue(v.prim)
    ensures !v.PrimitiveValue? ==> r == v
  {
    if v.PrimitiveValue? then BoxedValue(v.prim) else v
  }

  /** `toPrimitive` (and `Converters.reformat(Object)`): `null` stays `null`,
      a wrapper object is unwrapped, anything else is returned unchanged.
      Each arm of the `switch` is a result of the method, whose return type
      is `Object`, so the unwrapped primitive is boxed again: the method
      returns a wrapper equal to its input. The parameter is an `Object`
      too, so a primitive argument arrives boxed. */
  function ToPrimitive(obj: Value): (r: Value)
    ensures !obj.PrimitiveValue? ==> r == obj
    ensures r == AsObject(obj)
  {
    var o := AsObject(obj);
    AsObject(
      match o
      case NullValue => NullValue
      case BoxedValue(ByteValue(b)) => PrimitiveValue(ByteValue(b))
      case BoxedValue(BooleanValue(z)) => PrimitiveValue(BooleanValue(z))
      case BoxedValue(CharValue(c)) => PrimitiveValue(CharValue(c))
      case BoxedValue(DoubleValue(d)) => PrimitiveValue(DoubleValue(d))
      case BoxedValue(FloatValue(f)) => PrimitiveValue(FloatValue(f))
      case BoxedValue(IntValue(i)) => PrimitiveValue(IntValue(i))
      case BoxedValue(LongValue(l)) => PrimitiveValue(LongValue(l))
      case BoxedValue(ShortValue(s)) => PrimitiveValue(ShortValue(s))
      case _ => o)
  }

  /** An `Integer` handed to the conversion comes back as the same
      `Integer`, not as an unboxed `int`. */
  lemma ToPrimitiveKeepsWrapper(i: int32)
    ensures ToPrimitive(BoxedValue(IntValue(i))) == BoxedValue(IntValue(i))
    ensures ToPrimitive(BoxedValue(IntValue(i))) != PrimitiveValue(IntValue(i))
  {
  }

  // ---------------------------------------------------------------------
  // NUL-terminated UTF-16 strings

  const NUL: char := '\0'

  /** `toWideString`: a buffer of `|s| + 1` chars holding `s` then NUL. */
  function ToWideString(s: string): (w: seq<char>)
    ensures |w| == |s| + 1
    ensures w[..|s|] == s && w[|s|] == NUL
  {
    s + [NUL]
  }

  /** `fromWideString`: the chars read up to and including the first NUL,
      or the whole buffer when it holds no NUL. */
  function FromWideString(wide: seq<char>): (s: string)
    ensures |s| <= |wide| && s == wide[..|s|]
    ensures NUL in wide ==> 0 < |s| && s[|s| - 1] == NUL && NUL !in s[..|s| - 1]
    ensures NUL !in wide ==> s == wide
  {
    if |wide| == 0 then []
    else if wide[0] == NUL then [NUL]
    else
      var rest := FromWideString(wide[1..]);
      assert NUL in wide ==> NUL in wide[1..];
      [wide[0]] + rest
  }

  /** Decoding what was encoded returns the string with its terminator kept. */
  lemma {:induction false} WideStringRoundTrip(s: string)
    requires NUL !in s
    ensures FromWideString(ToWideString(s)) == s + [NUL]
  {
    if |s| > 0 {
      assert ToWideString(s)[1..] == ToWideString(s[1..]);
      WideStringRoundTrip(s[1..]);
    }
  }

  /** Decoding a decoded buffer changes nothing. */
  lemma {:induction false} FromWideStringIdempotent(wide: seq<char>)
    ensures FromWideString(FromWideString(wide)) == FromWideString(wide)
  {
    if |wide| > 0 && wide[0] != NUL {
      var rest := FromWideString(wide[1..]);
      FromWideStringIdempotent(wide[1..]);
      assert ([wide[0]] + rest)[1..] == rest;
    }
  }

  // ---------------------------------------------------------------------
  // Annotations and callback methods

  /** `toCallback` / `getAnnotation(Callback.class)`: the name carried by the
      first `@Callback` annotation, or `null` when there is none. */
  function ToCallback(annotations: seq<Annotation>): (r: Option<string>)
    ensures r.None? <==> forall i :: 0 <= i < |annotations| ==> !annotations[i].CallbackAnnotation?
    ensures r.Some? ==> exists i :: (0 <= i < |annotations| && annotations[i] == CallbackAnnotation(r.value)
      && (forall j :: 0 <= j < i ==> !annotations[j].CallbackAnnotation?))
  {
    if |annotations| == 0 then None
    else if annotations[0].CallbackAnnotation? then Some(annotations[0].name)
    else
      var r := ToCallback(annotations[1..]);
      if r.Some? then
        ghost var i :| 0 <= i < |annotations[1..]| && annotations[1..][i] == CallbackAnnotation(r.value)
          && (forall j :: 0 <= j < i ==> !annotations[1..][j].CallbackAnnotation?);
        assert annotations[i + 1] == CallbackAnnotation(r.value);
        assert forall j :: 0 <= j < i + 1 ==> !annotations[j].CallbackAnnotation? by {
          forall j | 0 <= j < i + 1
            ensures !annotations[j].CallbackAnnotation?
          {
            if j > 0 { assert annotations[j] == annotations[1..][j - 1]; }
          }
        }
        r
      else
        assert forall i :: 0 <= i < |annotations| ==> !annotations[i].CallbackAnnotation? by {
          forall i | 0 <= i < |annotations|
            ensures !annotations[i].CallbackAnnotation?
          {
            if i > 0 { assert annotations[i] == annotations[1..][i - 1]; }
          }
        }
        r
  }

  /** The annotation type a `getCallbacks` copy filters on: `Helpers`
      imports `io.greenscreens.foreign.annotations.Callback`, while
      `Converters` and the invocation handler use the same-package
      `io.greenscreens.foreign.Callback`. */
  datatype CallbackType = ForeignCallback | MarkerCallback

  /** `m.getAnnotation(type) != null`. */
  predicate Carries(m: Method, kind: CallbackType) {
    match kind
    case ForeignCallback => ToCallback(m.annotations).Some?
    case MarkerCallback => MarkerCallbackAnnotation in m.annotations
  }

  /** `getCallbacks`: the methods carrying the annotation type, in
      declaration order. */
  function CallbackMethods(methods: seq<Method>, kind: CallbackType): (r: seq<Method>)
    ensures |r| <= |methods|
    ensures forall m :: m in r <==> m in methods && Carries(m, kind)
  {
    if |methods| == 0 then []
    else
      var rest := CallbackMethods(methods[1..], kind);
      assert forall m :: m in methods <==> m == methods[0] || m in methods[1..];
      if Carries(methods[0], kind) then [methods[0]] + rest else rest
  }

  /** The filter keeps order: filtering a concatenation concatenates the
      filtered parts. */
  lemma {:induction false} CallbackMethodsAppend(a: seq<Method>, b: seq<Method>, kind: CallbackType)
    ensures CallbackMethods(a + b, kind) == CallbackMethods(a, kind) + CallbackMethods(b, kind)
    decreases |a|
  {
    if |a| == 0 {
      assert a + b == b;
    } else {
      assert (a + b)[0] == a[0];
      assert (a + b)[1..] == a[1..] + b;
      CallbackMethodsAppend(a[1..], b, kind);
    }
  }

  /** Every method the filter keeps carries the annotation type, at every
      index. */
  lemma CallbackMethodsCarry(methods: seq<Method>, kind: CallbackType)
    ensures forall i :: 0 <= i < |CallbackMethods(methods, kind)| ==> Carries(CallbackMethods(methods, kind)[i], kind)
  {
    var r := CallbackMethods(methods, kind);
    forall i | 0 <= i < |r| ensures Carries(r[i], kind) {
      assert r[i] in r;
    }
  }

  // ---------------------------------------------------------------------
  // Operating-system detection

  /** `Character.toLowerCase` restricted to ASCII letters. */
  function LowerChar(c: char): char {
    if 'A' <= c <= 'Z' then (c as int + 32) as char else c
  }

  function ToLowerAscii(s: string): (r: string)
    ensures |r| == |s|
    ensures forall i :: 0 <= i < |s| ==> r[i] == LowerChar(s[i])
  {
    seq(|s|, i requires 0 <= i < |s| => LowerChar(s[i]))
  }

  predicate StartsWith(s: string, prefix: string) {
    |prefix| <= |s| && s[..|prefix|] == prefix
  }

  predicate EndsWith(s: string, suffix: string) {
    |suffix| <= |s| && s[|s| - |suffix|..] == suffix
  }

  /** `String.contains`: `sub` occurs at some position of `s`. */
  function Contains(s: string, sub: string): (r: bool)
    ensures r <==> exists i :: 0 <= i <= |s| && StartsWith(s[i..], sub)
    decreases |s|
  {
    if StartsWith(s, sub) then
      assert s[0..] == s;
      true
    else if |s| == 0 then
      assert forall i :: 0 <= i <= |s| ==> i == 0 && s[i..] == s;
      false
    else
      var r := Contains(s[1..], sub);
      assert forall i :: 1 <= i <= |s| ==> s[i..] == s[1..][i - 1..];
      assert r ==> exists i :: 0 <= i <= |s| && StartsWith(s[i..], sub) by {
        if r {
          var k :| 0 <= k <= |s[1..]| && StartsWith(s[1..][k..], sub);
          assert s[k + 1..] == s[1..][k..];
        }
      }
      r
  }

  /** `isWin`: the lower-cased OS name contains "win", that is, "win"
      occurs in it in any mix of upper and lower case. */
  function IsWin(osName: string): (r: bool)
    ensures r <==> exists i :: 0 <= i && i + 3 <= |osName| && CaseInsensitiveWinAt(osName, i)
  {
    var low := ToLowerAscii(osName);
    var r := Contains(low, "win");
    forall i | 0 <= i <= |low|
      ensures StartsWith(low[i..], "win") <==> i + 3 <= |osName| && CaseInsensitiveWinAt(osName, i)
    {
      if i + 3 <= |low| {
        assert low[i..][..3] == [low[i], low[i + 1], low[i + 2]];
      }
    }
    r
  }

  predicate CaseInsensitiveWinAt(s: string, i: nat)
    requires i + 3 <= |s|
  {
    LowerChar(s[i]) == 'w' && LowerChar(s[i + 1]) == 'i' && LowerChar(s[i + 2]) == 'n'
  }
}

=== FILE: invocation_handler.dfy ===
/**
 The proxy's invocation handler: where the native library is found, the
 per-method downcall cache, the conversion of Java arguments into native
 ones, and the call itself. Loading the library and calling native code are
 outside the model: the library is its set of exported symbols, and the
 native call and the UTF-8 read of a returned address are parameters.
 */
module InvocationHandler {
  import opened Jvm
  import opened Helpers
  import opened Layouts
  import opened ForeignGenerator
  import opened CallbackGenerator

  // ---------------------------------------------------------------------
  // Finding the library

  /** The `@External` annotation of the library interface. */
  datatype External = External(name: string, property: string)

  /** The platform's shared-library extension. */
  function LibraryExtension(osName: string): (ext: string)
    ensures IsWin(osName) <==> ext == ".dll"
    ensures ext == ".dll" || ext == ".so"
  {
    if IsWin(osName) then ".dll" else ".so"
  }

  /** `lib.endsWith(ext) ? lib : lib + ext`. */
  function EnsureSuffix(lib: string, ext: string): (r: string)
    ensures EndsWith(r, ext)
    ensures EndsWith(lib, ext) ==> r == lib
    ensures r == lib || r == lib + ext
  {
    if EndsWith(lib, ext) then lib
    else
      assert (lib + ext)[|lib + ext| - |ext|..] == ext;
      lib + ext
  }

  lemma EnsureSuffixIdempotent(lib: string, ext: string)
    ensures EnsureSuffix(EnsureSuffix(lib, ext), ext) == EnsureSuffix(lib, ext)
  {
  }

  /** The library path before the extension: the trimmed `name`, or, when
      that is empty, the trimmed value of the system property `property`
      (empty when the property is not set). */
  function LibraryBase(ext: External, properties: map<string, string>): (r: string)
    ensures Trimmed(r)
    ensures Trim(ext.name) != "" ==> r == Trim(ext.name)
    ensures Trim(ext.name) == "" && ext.property !in properties ==> r == ""
    ensures Trim(ext.name) == "" && ext.property in properties ==> r == Trim(properties[ext.property])
  {
    var lib := Normalize(Some(ext.name));
    if |lib| == 0 then
      Normalize(if ext.property in properties then Some(properties[ext.property]) else None)
    else lib
  }

  /** `findLib()`: reading the annotation of an interface without one fails. */
  function FindLib(ext: Option<External>, properties: map<string, string>, osName: string): (r: Result<string>)
    ensures ext.None? <==> r == Err(NullPointer)
    ensures r.Ok? ==> EndsWith(r.value, LibraryExtension(osName))
    ensures r.Ok? ==> (r.value == LibraryBase(ext.value, properties)
                       || r.value == LibraryBase(ext.value, properties) + LibraryExtension(osName))
    ensures r.Ok? && EndsWith(LibraryBase(ext.value, properties), LibraryExtension(osName))
            ==> r.value == LibraryBase(ext.value, properties)
    ensures r.Ok? && !EndsWith(LibraryBase(ext.value, properties), LibraryExtension(osName))
            ==> r.value == LibraryBase(ext.value, properties) + LibraryExtension(osName)
  {
    if ext.None? then Err(NullPointer)
    else Ok(EnsureSuffix(LibraryBase(ext.value, properties), LibraryExtension(osName)))
  }

  /** A name given in the annotation wins: the system properties are then
      not consulted. */
  lemma NamePrecedesProperty(ext: External, p1: map<string, string>, p2: map<string, string>, osName: string)
    requires Trim(ext.name) != ""
    ensures FindLib(Some(ext), p1, osName) == FindLib(Some(ext), p2, osName)
  {
  }

  /** A trimmed base with an extension appended is still trimmed. */
  lemma SuffixedIsTrimmed(base: string, suffix: string)
    requires Trimmed(base) && (suffix == ".dll" || suffix == ".so")
    ensures Trimmed(base + suffix)
  {
    var lib := base + suffix;
    assert lib[|lib| - 1] == suffix[|suffix| - 1];
    if |base| == 0 {
      assert lib[0] == suffix[0];
    } else {
      assert lib[0] == base[0];
    }
  }

  /** A resolved library path resolves to itself. */
  lemma FindLibFixedPoint(ext: External, properties: map<string, string>, osName: string)
    ensures var lib := FindLib(Some(ext), properties, osName).value;
            FindLib(Some(External(lib, ext.property)), properties, osName) == Ok(lib)
  {
    var suffix := LibraryExtension(osName);
    var lib := EnsureSuffix(LibraryBase(ext, properties), suffix);
    ResolvedIsTrimmed(LibraryBase(ext, properties), suffix);
    BaseOfTrimmed(lib, ext.property, properties);
  }

  /** The resolved path is trimmed and not empty. */
  lemma ResolvedIsTrimmed(base: string, suffix: string)
    requires Trimmed(base) && (suffix == ".dll" || suffix == ".so")
    ensures var lib := EnsureSuffix(base, suffix);
            Trimmed(lib) && |lib| > 0
  {
    var lib := EnsureSuffix(base, suffix);
    if lib != base {
      SuffixedIsTrimmed(base, suffix);
    }
    assert EndsWith(lib, suffix);
  }

  /** A trimmed, non-empty name is taken as the base unchanged. */
  lemma BaseOfTrimmed(lib: string, property: string, properties: map<string, string>)
    requires Trimmed(lib) && |lib| > 0
    ensures LibraryBase(External(lib, property), properties) == lib
  {
    TrimOfTrimmed(lib);
  }

  // ---------------------------------------------------------------------
  // The handler and its downcall cache

  /** The handler's state: the symbols of the loaded library, the downcalls
      linked so far, the callback cache, and how many downcalls it has
      linked. */
  datatype Handler = Handler(
    exports: set<string>,
    downcalls: map<Method, Downcall>,
    callbacks: CallbackCache,
    builds: nat)

  /** Every cached downcall is what `build` makes of its method, each was
      built exactly once, and the callback cache is coherent. */
  predicate Coherent(h: Handler, methodsOf: JType -> seq<Method>) {
    && (forall m :: m in h.downcalls ==> Build(h.exports, m) == Ok(h.downcalls[m]))
    && h.builds == |h.downcalls.Keys|
    && CacheCoherent(h.callbacks, methodsOf, ForeignCallback)
  }

  /** A freshly constructed handler. */
  function NewHandler(exports: set<string>): (h: Handler)
    ensures forall methodsOf: JType -> seq<Method> :: Coherent(h, methodsOf)
    ensures h.downcalls == map[] && h.builds == 0
  {
    Handler(exports, map[], map[], 0)
  }

  /** The result of a step of the handler, with its state afterwards. */
  datatype Outcome<T> = Outcome(result: Result<T>, handler: Handler)

  /** `get(method)`: the cached downcall, or a new one built and stored. A
      failed build stores nothing. */
  function Get(h: Handler, methodsOf: JType -> seq<Method>, m: Method): (r: Outcome<Downcall>)
    requires Coherent(h, methodsOf)
    ensures Coherent(r.handler, methodsOf)
    ensures r.result == Build(h.exports, m)
    ensures r.handler.exports == h.exports && r.handler.callbacks == h.callbacks
    ensures m in h.downcalls ==> r.handler == h
    ensures m !in h.downcalls && r.result.Ok? ==> (
      && r.handler.downcalls == h.downcalls[m := r.result.value]
      && r.handler.builds == h.builds + 1)
    ensures r.result.Err? ==> r.handler == h
  {
    if m in h.downcalls then Outcome(Ok(h.downcalls[m]), h)
    else
      var b := Build(h.exports, m);
      if b.Err? then Outcome(Err(b.error), h)
      else
        InsertKeepsCoherent(h, methodsOf, m, b.value);
        Outcome(Ok(b.value), h.(downcalls := h.downcalls[m := b.value], builds := h.builds + 1))
  }

  /** Storing a freshly built downcall keeps the handler coherent. */
  lemma InsertKeepsCoherent(h: Handler, methodsOf: JType -> seq<Method>, m: Method, d: Downcall)
    requires Coherent(h, methodsOf) && m !in h.downcalls && Build(h.exports, m) == Ok(d)
    ensures Coherent(h.(downcalls := h.downcalls[m := d], builds := h.builds + 1), methodsOf)
  {
    InsertCounts(h.downcalls, m, d);
  }

  /** Inserting a new key adds one to the key count. */
  lemma InsertCounts<K, V>(cache: map<K, V>, k: K, v: V)
    requires k !in cache
    ensures |cache[k := v].Keys| == |cache.Keys| + 1
  {
    assert cache[k := v].Keys == cache.Keys + {k};
  }

  /** A method is linked at most once: getting it again builds nothing. */
  lemma GetTwice(h: Handler, methodsOf: JType -> seq<Method>, m: Method)
    requires Coherent(h, methodsOf)
    ensures var first := Get(h, methodsOf, m);
            var second := Get(first.handler, methodsOf, m);
            second.result == first.result && second.handler == first.handler
  {
  }

  /** Getting the methods `ms` in turn. */
  function GetAll(h: Handler, methodsOf: JType -> seq<Method>, ms: seq<Method>): (r: Handler)
    requires Coherent(h, methodsOf)
    ensures Coherent(r, methodsOf)
    ensures r.exports == h.exports
    ensures h.downcalls.Keys <= r.downcalls.Keys <= h.downcalls.Keys + (set m | m in ms)
    decreases |ms|
  {
    if |ms| == 0 then h
    else
      var first := Get(h, methodsOf, ms[0]).handler;
      var r := GetAll(first, methodsOf, ms[1..]);
      assert first.downcalls.Keys <= h.downcalls.Keys + {ms[0]};
      ElementsOfTail(ms);
      r
  }

  lemma ElementsOfTail<T>(ms: seq<T>)
    requires |ms| > 0
    ensures (set m | m in ms[1..]) + {ms[0]} == set m | m in ms
  {
    assert forall m :: m in ms <==> m == ms[0] || m in ms[1..];
  }

  /** However often a method recurs in `ms`, it is linked at most once. */
  lemma GetAllBuildsEachOnce(h: Handler, methodsOf: JType -> seq<Method>, ms: seq<Method>)
    requires Coherent(h, methodsOf)
    ensures GetAll(h, methodsOf, ms).builds <= h.builds + |(set m | m in ms) - h.downcalls.Keys|
  {
    var r := GetAll(h, methodsOf, ms);
    CountNewKeys(h.downcalls.Keys, r.downcalls.Keys, set m | m in ms);
  }

  /** Keys added are drawn from the requested methods. */
  lemma CountNewKeys<K>(before: set<K>, after: set<K>, requested: set<K>)
    requires before <= after <= before + requested
    ensures |after| <= |before| + |requested - before|
  {
    assert after == before + (after - before);
    assert after - before <= requested - before;
    SubsetCardinality(after - before, requested - before);
  }

  lemma SubsetCardinality<K>(a: set<K>, b: set<K>)
    requires a <= b
    ensures |a| <= |b|
  {
    assert b == a + (b - a);
  }

  // ---------------------------------------------------------------------
  // Wrapping arguments

  /** What `wrap` does with the argument of a parameter. */
  datatype ArgPlan =
    | CopyArray              // primitive array into a new segment
    | AllocateString         // String into a UTF-8 segment
    | MakePointer            // MethodHandle into an upcall pointer
    | BindCallback(name: string) // @Callback parameter: bound callback pointer
    | PassThrough            // anything else, unchanged

  /** The guard of the array branch: an array class whose array class is
      primitive. */
  predicate CopiesArray(t: JType) {
    IsArray(t) && IsPrimitive(ArrayTypeOf(t))
  }

  /** The array guard asks whether the array class of `t` is primitive; an
      array class never is, so no argument takes the array branch. */
  lemma ArrayBranchUnreachable(t: JType)
    ensures !CopiesArray(t)
  {
  }

  /** The branch `wrap` takes for a parameter, in the order of its tests. */
  function PlanFor(p: Param): (r: ArgPlan)
    ensures r != CopyArray
    ensures r == AllocateString <==> p.ptype == StringType
    ensures r == MakePointer <==> p.ptype == MethodHandleType
    ensures r.BindCallback? <==> (p.ptype != StringType && p.ptype != MethodHandleType
                                  && ToCallback(p.annotations).Some?)
    ensures r.BindCallback? ==> Some(r.name) == ToCallback(p.annotations)
  {
    var t := p.ptype;
    if CopiesArray(t) then CopyArray
    else if t == StringType then AllocateString
    else if t == MethodHandleType then MakePointer
    else
      var cb := ToCallback(p.annotations);
      if cb.Some? then BindCallback(cb.value) else PassThrough
  }

  /** A native-call argument. */
  datatype NativeArg =
    | Utf8String(text: string)   // a segment holding the string's UTF-8 bytes
    | Upcall(pointer: Pointer)   // a function pointer
    | NullArg                    // `null`
    | Passed(value: Value)       // the Java argument itself

  /** The `String` branch: the trimmed string, `null` as the empty one. */
  function StringArg(arg: Value): Result<NativeArg> {
    if arg.StringValue? then Ok(Utf8String(Normalize(Some(arg.s))))
    else if arg.NullValue? then Ok(Utf8String(Normalize(None)))
    else Err(ClassCast)
  }

  /** The `MethodHandle` branch: an upcall pointer for the handle. */
  function HandleArg(arg: Value): Result<NativeArg> {
    if arg.HandleValue? then
      var ptr := ToPointerUnchecked(Some(arg.handle));
      if ptr.Err? then Err(ptr.error) else Ok(Upcall(ptr.value))
    else if arg.NullValue? then Err(NullPointer)
    else Err(ClassCast)
  }

  /** The callback branch: no handle gives `null`, otherwise the handle bound
      to the argument, as an upcall pointer. */
  function CallbackArg(handle: Option<MethodHandle>, arg: Value): Result<NativeArg> {
    if handle.None? then Ok(NullArg)
    else
      var bound := BindTo(handle.value, arg);
      if bound.Err? then Err(bound.error)
      else
        var ptr := ToPointerUnchecked(Some(bound.value));
        if ptr.Err? then Err(ptr.error) else Ok(Upcall(ptr.value))
  }

  /** The argument `wrap` produces, stated without the callback cache: the
      callback method is chosen from the parameter class's methods
      directly. */
  function ExpectedArg(methodsOf: JType -> seq<Method>, p: Param, arg: Value): Result<NativeArg> {
    match PlanFor(p)
    case CopyArray => Err(Unsupported("Unsupported data type"))
    case AllocateString => StringArg(arg)
    case MakePointer => HandleArg(arg)
    case BindCallback(name) =>
      CallbackArg(UnreflectSelected(ChooseCallback(CallbackMethods(methodsOf(p.ptype), ForeignCallback), name)), arg)
    case PassThrough => Ok(Passed(arg))
  }

  /** One iteration of `wrap`'s loop, through the callback cache. */
  function WrapArg(cache: CallbackCache, methodsOf: JType -> seq<Method>, p: Param, arg: Value)
    : (r: Step<Result<NativeArg>>)
    requires CacheCoherent(cache, methodsOf, ForeignCallback)
    ensures CacheCoherent(r.cache, methodsOf, ForeignCallback)
    ensures r.value == ExpectedArg(methodsOf, p, arg)
    ensures forall t :: t in cache ==> t in r.cache && r.cache[t] == cache[t]
  {
    var t := p.ptype;
    if CopiesArray(t) then Step(Err(Unsupported("Unsupported data type")), cache)
    else if t == StringType then Step(StringArg(arg), cache)
    else if t == MethodHandleType then Step(HandleArg(arg), cache)
    else
      var cb := ToCallback(p.annotations);
      if cb.Some? then
        var found := CallbackByName(cache, methodsOf, ForeignCallback, t, cb.value);
        Step(CallbackArg(found.value.value, arg), found.cache)
      else Step(Ok(Passed(arg)), cache)
  }

  /** The arguments `wrap` produces, stated without the callback cache:
      each expected argument in turn, the first failure winning. There is one
      parameter type per declared parameter, so surplus arguments fail the
      array index. */
  function ExpectedArgs(methodsOf: JType -> seq<Method>, ps: seq<Param>, args: seq<Value>)
    : Result<seq<NativeArg>>
    decreases |args|
  {
    if |args| == 0 then Ok([])
    else if |ps| == 0 then Err(IndexOutOfBounds)
    else
      var a := ExpectedArg(methodsOf, ps[0], args[0]);
      if a.Err? then Err(a.error)
      else
        var rest := ExpectedArgs(methodsOf, ps[1..], args[1..]);
        if rest.Err? then rest else Ok([a.value] + rest.value)
  }

  /** The expected arguments succeed exactly when there are no surplus
      arguments and every argument converts; then entry `i` is argument `i`
      converted against parameter `i`. */
  lemma {:induction false} ExpectedArgsPerIndex(methodsOf: JType -> seq<Method>, ps: seq<Param>, args: seq<Value>)
    ensures var r := ExpectedArgs(methodsOf, ps, args);
            && (r.Ok? <==> (|args| <= |ps|
                            && forall i :: 0 <= i < |args| ==> ExpectedArg(methodsOf, ps[i], args[i]).Ok?))
            && (r.Ok? ==> (|r.value| == |args|
                           && forall i :: 0 <= i < |args| ==> Ok(r.value[i]) == ExpectedArg(methodsOf, ps[i], args[i])))
  {
    if |args| > 0 && |ps| > 0 {
      ExpectedArgsPerIndex(methodsOf, ps[1..], args[1..]);
      assert forall i :: 1 <= i < |args| ==> args[i] == args[1..][i - 1];
      assert forall i :: 1 <= i < |ps| ==> ps[i] == ps[1..][i - 1];
    }
  }

  /** `wrap`'s loop over the arguments, through the callback cache. */
  function WrapAll(cache: CallbackCache, methodsOf: JType -> seq<Method>, ps: seq<Param>, args: seq<Value>)
    : (r: Step<Result<seq<NativeArg>>>)
    requires CacheCoherent(cache, methodsOf, ForeignCallback)
    ensures CacheCoherent(r.cache, methodsOf, ForeignCallback)
    ensures r.value == ExpectedArgs(methodsOf, ps, args)
    decreases |args|
  {
    if |args| == 0 then Step(Ok([]), cache)
    else if |ps| == 0 then Step(Err(IndexOutOfBounds), cache)
    else
      var a := WrapArg(cache, methodsOf, ps[0], args[0]);
      if a.value.Err? then Step(Err(a.value.error), a.cache)
      else
        var rest := WrapAll(a.cache, methodsOf, ps[1..], args[1..]);
        if rest.value.Err? then Step(Err(rest.value.error), rest.cache)
        else Step(Ok([a.value.value] + rest.value.value), rest.cache)
  }

  /** `wrap(method, args)`: `null` arguments (a method without parameters)
      stay `null`. */
  function Wrap(cache: CallbackCache, methodsOf: JType -> seq<Method>, m: Method, args: Option<seq<Value>>)
    : (r: Step<Result<Option<seq<NativeArg>>>>)
    requires CacheCoherent(cache, methodsOf, ForeignCallback)
    ensures CacheCoherent(r.cache, methodsOf, ForeignCallback)
    ensures args.None? ==> r == Step(Ok(None), cache)
    ensures args.Some? ==> (r.value.Ok? <==> ExpectedArgs(methodsOf, m.params, args.value).Ok?)
    ensures args.Some? && r.value.Ok? ==> r.value.value == Some(ExpectedArgs(methodsOf, m.params, args.value).value)
  {
    if args.None? then Step(Ok(None), cache)
    else
      var w := WrapAll(cache, methodsOf, m.params, args.value);
      Step(if w.value.Err? then Err(w.value.error) else Ok(Some(w.value.value)), w.cache)
  }

  /** String arguments reach native code trimmed, and a `null` string as an
      empty one. */
  lemma StringArgumentTrimmed(methodsOf: JType -> seq<Method>, p: Param, arg: Value)
    requires p.ptype == StringType && (arg.StringValue? || arg.NullValue?)
    ensures ExpectedArg(methodsOf, p, arg).Ok?
    ensures var a := ExpectedArg(methodsOf, p, arg).value;
            && a.Utf8String? && Trimmed(a.text)
            && (arg.NullValue? ==> a.text == "")
            && (arg.StringValue? ==> BlankPadded(arg.s, a.text))
  {
  }

  /** A callback argument becomes a pointer to the chosen callback method
      bound to the argument, described by the method's own signature. */
  lemma CallbackArgumentIsBoundPointer(methodsOf: JType -> seq<Method>, p: Param, arg: Value)
    requires PlanFor(p).BindCallback?
    requires var m := ChooseCallback(CallbackMethods(methodsOf(p.ptype), ForeignCallback), PlanFor(p).name);
             m.Some? && !IsPrimitive(m.value.owner)
             && NoVoidParameter(m.value)
    ensures var m := ChooseCallback(CallbackMethods(methodsOf(p.ptype), ForeignCallback), PlanFor(p).name).value;
            var a := ExpectedArg(methodsOf, p, arg);
            && a.Ok? && a.value.Upcall?
            && a.value.pointer.target == BoundHandle(Unreflected(m), arg)
            && a.value.pointer.descriptor.result == ToLayout(m.ret)
            && |a.value.pointer.descriptor.args| == |m.params|
  {
    var m := ChooseCallback(CallbackMethods(methodsOf(p.ptype), ForeignCallback), PlanFor(p).name).value;
    CallbackPointerDescriptor(m, arg);
  }

  // ---------------------------------------------------------------------
  // Invocation

  /** `invoke(proxy, method, args)`: get the downcall, wrap the arguments,
      call, and decode a `String` result from the returned address. `call`
      stands for the native function and `readUtf8` for reading a
      NUL-terminated UTF-8 string at an address. */
  function Invoke(h: Handler, methodsOf: JType -> seq<Method>, m: Method, args: Option<seq<Value>>,
                  call: (Downcall, Option<seq<NativeArg>>) -> Value, readUtf8: nat -> string)
    : (r: Outcome<Value>)
    requires Coherent(h, methodsOf)
    ensures Coherent(r.handler, methodsOf)
    ensures r.handler.exports == h.exports
    ensures var got := Get(h, methodsOf, m).handler;
            r.handler.downcalls == got.downcalls && r.handler.builds == got.builds
    ensures Build(h.exports, m).Err? ==> r == Outcome(Err(Build(h.exports, m).error), h)
    ensures r.result.Ok? ==> (
      && m in r.handler.downcalls
      && var w := Wrap(h.callbacks, methodsOf, m, args).value;
      && w.Ok?
      && var raw := call(Build(h.exports, m).value, w.value);
      && (m.ret == StringType ==> raw.SegmentValue? && r.result.value == StringValue(readUtf8(raw.address)))
      && (m.ret != StringType ==> r.result.value == raw))
    ensures Build(h.exports, m).Ok? && Wrap(h.callbacks, methodsOf, m, args).value.Err?
            ==> r.result == Err(Wrap(h.callbacks, methodsOf, m, args).value.error)
    ensures Build(h.exports, m).Ok? && Wrap(h.callbacks, methodsOf, m, args).value.Ok? ==> (
      var raw := call(Build(h.exports, m).value, Wrap(h.callbacks, methodsOf, m, args).value.value);
      && (m.ret != StringType ==> r.result == Ok(raw))
      && (m.ret == StringType && raw.SegmentValue? ==> r.result == Ok(StringValue(readUtf8(raw.address))))
      && (m.ret == StringType && raw.NullValue? ==> r.result == Err(NullPointer))
      && (m.ret == StringType && !raw.SegmentValue? && !raw.NullValue? ==> r.result == Err(ClassCast)))
  {
    var got := Get(h, methodsOf, m);
    if got.result.Err? then Outcome(Err(got.result.error), got.handler)
    else
      var h1 := got.handler;
      var wrapped := Wrap(h1.callbacks, methodsOf, m, args);
      var h2 := h1.(callbacks := wrapped.cache);
      if wrapped.value.Err? then Outcome(Err(wrapped.value.error), h2)
      else
        var raw := call(got.result.value, wrapped.value.value);
        if m.ret != StringType then Outcome(Ok(raw), h2)
        else if raw.NullValue? then Outcome(Err(NullPointer), h2)
        else if raw.SegmentValue? then Outcome(Ok(StringValue(readUtf8(raw.address))), h2)
        else Outcome(Err(ClassCast), h2)
  }

  /** Calling the same method twice links it once. */
  lemma InvokeTwiceBuildsOnce(h: Handler, methodsOf: JType -> seq<Method>, m: Method,
                              a1: Option<seq<Value>>, a2: Option<seq<Value>>,
                              call: (Downcall, Option<seq<NativeArg>>) -> Value, readUtf8: nat -> string)
    requires Coherent(h, methodsOf)
    requires Build(h.exports, m).Ok?
    ensures var first := Invoke(h, methodsOf, m, a1, call, readUtf8).handler;
            var second := Invoke(first, methodsOf, m, a2, call, readUtf8).handler;
            && m in first.downcalls
            && second.builds == first.builds
            && first.builds == h.builds + (if m in h.downcalls then 0 else 1)
  {
    var first := Invoke(h, methodsOf, m, a1, call, readUtf8).handler;
    assert m in first.downcalls;
    var second := Invoke(first, methodsOf, m, a2, call, readUtf8).handler;
    assert Get(first, methodsOf, m).handler == first;
  }
}

=== FILE: jvm.dfy ===
/**
 The Java-level vocabulary the binding engine works with: classes (as a
 closed datatype of the kinds the engine distinguishes), annotations,
 reflective method records, runtime values, and the exceptions the engine
 can raise. Everything else in the model is built on these definitions.
 */
module Jvm {

  /** Java's fixed-width integral types, written out because Dafny's `int`
      is unbounded. */
  newtype int8 = x: int | -0x80 <= x < 0x80
  newtype int16 = x: int | -0x8000 <= x < 0x8000
  newtype int32 = x: int | -0x8000_0000 <= x < 0x8000_0000
  newtype int64 = x: int | -0x8000_0000_0000_0000 <= x < 0x8000_0000_0000_0000

  /** A Java `char`: one UTF-16 code unit (lone surrogates included). */
  newtype char16 = x: int | 0 <= x < 0x1_0000

  /** Floating-point values are opaque to the engine; they are carried as
      their raw IEEE-754 bit patterns. */
  newtype float32 = x: int | 0 <= x < 0x1_0000_0000
  newtype float64 = x: int | 0 <= x < 0x1_0000_0000_0000_0000

  /** A Java reference that may be `null`. */
  datatype Option<+T> = None | Some(value: T)

  /** The exceptions the engine's code paths can throw. */
  datatype Exception =
    | NullPointer
    | ClassCast
    | IndexOutOfBounds
    | IllegalArgument
    | IllegalState
    | NoSuchElement
    | BufferUnderflow
    | NegativeArraySize
    | Unsupported(message: string)

  /** A computation that either returns normally or throws. */
  datatype Result<+T> = Ok(value: T) | Err(error: Exception)

  /** The eight Java scalar kinds. */
  datatype Scalar = Byte | Boolean | Char | Double | Float | Int | Long | Short

  /** A `Class<?>` as far as the engine can tell classes apart. */
  datatype JType =
    | Primitive(scalar: Scalar)   // byte.class, boolean.class, ...
    | VoidType                    // void.class (a primitive class)
    | Boxed(boxed: Scalar)        // Byte.class, Boolean.class, ...
    | VoidBoxed                   // Void.class
    | StringType
    | MethodHandleType
    | MemorySegmentType
    | ByteBufferType
    | CharBufferType
    | ArrayType(component: JType)
    | ClassType(name: string)     // any other class or interface

  /** `Class.isPrimitive`: the eight scalars and `void`. */
  predicate IsPrimitive(t: JType) {
    t.Primitive? || t.VoidType?
  }

  /** `Class.arrayType`: the class of arrays whose component is `t`. */
  function ArrayTypeOf(t: JType): JType {
    ArrayType(t)
  }

  /** `Class.componentType`: `null` unless `t` is an array class. */
  function ComponentTypeOf(t: JType): Option<JType> {
    if t.ArrayType? then Some(t.component) else None
  }

  /** Annotations the engine looks at. Two annotation types share the simple
      name `Callback`: `io.greenscreens.foreign.Callback`, which carries a
      name, and `io.greenscreens.foreign.annotations.Callback`, of which only
      the presence matters here. */
  datatype Annotation =
    | CallbackAnnotation(name: string)   // @io.greenscreens.foreign.Callback(name)
    | MarkerCallbackAnnotation           // @io.greenscreens.foreign.annotations.Callback
    | OtherAnnotation(kind: string)

  /** A reflective `Parameter`: its declared type and its annotations. */
  datatype Param = Param(ptype: JType, annotations: seq<Annotation>)

  /** A reflective (instance) `Method`: declaring class, name, return type,
      parameters and method-level annotations. */
  datatype Method = Method(
    owner: JType,
    name: string,
    ret: JType,
    params: seq<Param>,
    annotations: seq<Annotation>)

  /** The Java language admits no `void` formal parameter, so every
      reflective `Method` satisfies this. */
  predicate NoVoidParameter(m: Method) {
    forall i :: 0 <= i < |m.params| ==> m.params[i].ptype != VoidType
  }

  function ParamTypes(ps: seq<Param>): (ts: seq<JType>)
    ensures |ts| == |ps|
    ensures forall i :: 0 <= i < |ps| ==> ts[i] == ps[i].ptype
  {
    seq(|ps|, i requires 0 <= i < |ps| => ps[i].ptype)
  }

  /** `MethodType`: return type and parameter types of a handle. */
  datatype MethodType = MethodType(ret: JType, ptypes: seq<JType>)

  /** A `MethodHandle`: one obtained with `Lookup.unreflect`, one produced by
      `bindTo`, or one handed in by the caller (identified by `id`). */
  datatype MethodHandle =
    | Unreflected(unreflected: Method)
    | BoundHandle(target: MethodHandle, receiver: Value)
    | ForeignHandle(mtype: MethodType, id: nat)

  /** A primitive value of each scalar kind. */
  datatype PrimValue =
    | ByteValue(b: int8)
    | BooleanValue(z: bool)
    | CharValue(c: char16)
    | DoubleValue(d: float64)
    | FloatValue(f: float32)
    | IntValue(i: int32)
    | LongValue(l: int64)
    | ShortValue(s: int16)

  /** A runtime value as the invocation handler sees it. */
  datatype Value =
    | NullValue
    | PrimitiveValue(prim: PrimValue)
    | BoxedValue(boxed: PrimValue)
    | StringValue(s: string)
    | HandleValue(handle: MethodHandle)
    | SegmentValue(address: nat)
    | ObjectValue(cls: JType, id: nat)

  /** `MethodHandle.type()`. Unreflecting an instance method adds the
      receiver as leading parameter; binding removes the leading parameter. */
  function TypeOf(h: MethodHandle): MethodType {
    match h
    case Unreflected(m) => MethodType(m.ret, [m.owner] + ParamTypes(m.params))
    case BoundHandle(t, _) =>
      var mt := TypeOf(t);
      MethodType(mt.ret, if |mt.ptypes| == 0 then [] else mt.ptypes[1..])
    case ForeignHandle(mt, _) => mt
  }

  /** `MethodHandle.bindTo`: the leading parameter must be of a reference type. */
  function BindTo(h: MethodHandle, receiver: Value): (r: Result<MethodHandle>)
    ensures r.Ok? <==> |TypeOf(h).ptypes| > 0 && !IsPrimitive(TypeOf(h).ptypes[0])
    ensures r.Ok? ==> TypeOf(r.value) == MethodType(TypeOf(h).ret, TypeOf(h).ptypes[1..])
  {
    var mt := TypeOf(h);
    if |mt.ptypes| == 0 || IsPrimitive(mt.ptypes[0]) then Err(IllegalArgument)
    else Ok(BoundHandle(h, receiver))
  }
}

=== FILE: layouts.dfy ===
/**
 The type-layout catalog and the descriptor builder: `toLayout`, both
 `tolayouts`, the `buildDescriptor` family and the upcall `toPointer`. The
 Java repository carries three copies of this code (in `Converters`,
 `ForeignGenerator` and `ExternalInvocationHandler`). They compute the same
 layouts and descriptors; the handler's `toPointer` and
 `buildDescriptor(MethodHandle)` lack the `null` checks of the other two,
 which `ToPointerUnchecked` models.
 */
module Layouts {
  import opened Jvm
  import Helpers

  /** The `ValueLayout` constants the engine uses. */
  datatype Layout =
    | JavaByte
    | JavaBoolean
    | JavaChar
    | JavaDouble
    | JavaFloat
    | JavaInt
    | JavaLong
    | JavaShort
    | Address

  /** The catalog entry of each scalar kind. */
  function ScalarLayout(s: Scalar): Layout {
    match s
    case Byte => JavaByte
    case Boolean => JavaBoolean
    case Char => JavaChar
    case Double => JavaDouble
    case Float => JavaFloat
    case Int => JavaInt
    case Long => JavaLong
    case Short => JavaShort
  }

  /** The scalar kind a layout stands for; `Address` stands for none. */
  function LayoutScalar(l: Layout): Option<Scalar> {
    match l
    case JavaByte => Some(Byte)
    case JavaBoolean => Some(Boolean)
    case JavaChar => Some(Char)
    case JavaDouble => Some(Double)
    case JavaFloat => Some(Float)
    case JavaInt => Some(Int)
    case JavaLong => Some(Long)
    case JavaShort => Some(Short)
    case Address => None
  }

  /** `toLayout`: a primitive class gets its scalar layout, `void` gets none
      (`null`, since it matches none of the eight branches), every other
      class is passed as an address. */
  function ToLayout(t: JType): (r: Option<Layout>)
    ensures r.None? <==> t == VoidType
    ensures t.Primitive? ==> r == Some(ScalarLayout(t.scalar))
    ensures !IsPrimitive(t) ==> r == Some(Address)
  {
    if IsPrimitive(t) then
      assert t.Primitive? ==> (t.scalar.Byte? || t.scalar.Boolean? || t.scalar.Char? || t.scalar.Double?
                               || t.scalar.Float? || t.scalar.Int? || t.scalar.Long? || t.scalar.Short?);
      if t == Primitive(Byte) then Some(JavaByte)
      else if t == Primitive(Boolean) then Some(JavaBoolean)
      else if t == Primitive(Char) then Some(JavaChar)
      else if t == Primitive(Double) then Some(JavaDouble)
      else if t == Primitive(Float) then Some(JavaFloat)
      else if t == Primitive(Int) then Some(JavaInt)
      else if t == Primitive(Long) then Some(JavaLong)
      else if t == Primitive(Short) then Some(JavaShort)
      else None
    else Some(Address)
  }

  /** `isVoid` accepts both `void` and `Void`, but the layout catalog and
      the descriptor builders test `void.class` alone: exactly the primitive
      `void` has no layout, and a `Void` return is passed as an address. */
  lemma VoidLayouts(t: JType)
    ensures ToLayout(t).None? <==> Helpers.IsVoid(t) && IsPrimitive(t)
    ensures Helpers.IsVoid(t) && !IsPrimitive(t) ==> ToLayout(t) == Some(Address)
    ensures Helpers.IsVoid(t) <==> ToLayout(t).None? || t == VoidBoxed
  {
  }

  /** Each scalar gets a layout of its own: the catalog is inverted by
      `LayoutScalar`, so no two primitive classes share a layout, and no
      primitive class is passed as an address. */
  lemma ScalarLayoutsAreDistinct(t: JType, u: JType)
    ensures t.Primitive? ==> LayoutScalar(ToLayout(t).value) == Some(t.scalar)
    ensures t.Primitive? && u.Primitive? && ToLayout(t) == ToLayout(u) ==> t == u
    ensures ToLayout(t) == Some(Address) <==> !IsPrimitive(t)
  {
    if t.Primitive? && u.Primitive? && ToLayout(t) == ToLayout(u) {
      assert LayoutScalar(ToLayout(t).value) == LayoutScalar(ToLayout(u).value);
    }
  }

  /** A call signature: the return layout (`None` for `ofVoid`) and one
      layout per argument. */
  datatype FunctionDescriptor = FunctionDescriptor(result: Option<Layout>, args: seq<Layout>)

  /** `tolayouts(Method)` as written: one entry per declared parameter, each
      computed from the type of parameter 0. */
  function MethodArgLayouts(m: Method): (r: seq<Option<Layout>>)
    ensures |r| == |m.params|
    ensures forall i :: 0 <= i < |r| ==> r[i] == ToLayout(m.params[0].ptype)
  {
    seq(|m.params|, i requires 0 <= i < |m.params| => ToLayout(m.params[0].ptype))
  }

  /** `tolayouts(MethodHandle)`: entry `i` is the layout of parameter `i`. */
  function TypeArgLayouts(ptypes: seq<JType>): (r: seq<Option<Layout>>)
    ensures |r| == |ptypes|
    ensures forall i :: 0 <= i < |r| ==> r[i] == ToLayout(ptypes[i])
  {
    seq(|ptypes|, i requires 0 <= i < |ptypes| => ToLayout(ptypes[i]))
  }

  /** The method form agrees with the per-parameter form exactly when every
      parameter has the layout of the first one. */
  lemma MethodLayoutsFollowFirstParameter(m: Method)
    ensures MethodArgLayouts(m) == TypeArgLayouts(ParamTypes(m.params))
        <==> forall i :: 0 <= i < |m.params| ==> ToLayout(m.params[i].ptype) == ToLayout(m.params[0].ptype)
  {
    var a, b := MethodArgLayouts(m), TypeArgLayouts(ParamTypes(m.params));
    if a == b {
      forall i | 0 <= i < |m.params|
        ensures ToLayout(m.params[i].ptype) == ToLayout(m.params[0].ptype)
      {
        assert a[i] == b[i];
      }
    }
  }

  /** A method taking `(int, String)` is described as taking two ints. */
  lemma SecondParameterLayoutIsLost()
    ensures var m := Method(ClassType("Lib"), "f", VoidType,
                            [Param(Primitive(Int), []), Param(StringType, [])], []);
            MethodArgLayouts(m) == [Some(JavaInt), Some(JavaInt)]
            && TypeArgLayouts(ParamTypes(m.params)) == [Some(JavaInt), Some(Address)]
  {
  }

  /** All entries present: `FunctionDescriptor.of` rejects a null layout. */
  function AllPresent(ls: seq<Option<Layout>>): (r: Option<seq<Layout>>)
    ensures r.Some? <==> forall i :: 0 <= i < |ls| ==> ls[i].Some?
    ensures r.Some? ==> |r.value| == |ls| && (forall i :: 0 <= i < |ls| ==> ls[i] == Some(r.value[i]))
  {
    if |ls| == 0 then Some([])
    else
      var rest := AllPresent(ls[1..]);
      assert forall i :: 1 <= i < |ls| ==> ls[i] == ls[1..][i - 1];
      if ls[0].None? || rest.None? then None
      else Some([ls[0].value] + rest.value)
  }

  /** `buildVoidDescriptor` / `buildReturnDescriptor`: `ofVoid(args)` for a
      `void` return type, `of(toLayout(ret), args)` otherwise. */
  function Describe(ret: JType, args: seq<Option<Layout>>): (r: Result<FunctionDescriptor>)
    ensures r.Ok? <==> forall i :: 0 <= i < |args| ==> args[i].Some?
    ensures r.Err? ==> r.error == NullPointer
    ensures r.Ok? ==> r.value.result == ToLayout(ret)
    ensures r.Ok? ==> (|r.value.args| == |args|
                       && forall i :: 0 <= i < |args| ==> args[i] == Some(r.value.args[i]))
  {
    var ls := AllPresent(args);
    if ls.None? then Err(NullPointer)
    else if ret == VoidType then Ok(FunctionDescriptor(None, ls.value))
    else Ok(FunctionDescriptor(ToLayout(ret), ls.value))
  }

  /** `buildDescriptor(Method)`: for any method Java can declare, a
      descriptor whose result is the return type's layout and whose argument
      entries, one per parameter, all carry parameter 0's layout. */
  function MethodDescriptor(m: Method): (r: Result<FunctionDescriptor>)
    ensures NoVoidParameter(m) ==> r.Ok?
    ensures r.Err? ==> r.error == NullPointer
    ensures r.Ok? ==> r.value.result == ToLayout(m.ret) && |r.value.args| == |m.params|
    ensures r.Ok? ==> forall i :: 0 <= i < |m.params| ==> Some(r.value.args[i]) == ToLayout(m.params[0].ptype)
  {
    Describe(m.ret, MethodArgLayouts(m))
  }

  /** The descriptor of an interface method: no return layout exactly for a
      `void` method, the return type's layout otherwise, one argument entry
      per declared parameter, all copied from parameter 0. It could only
      fail when parameter 0 were `void`, which no Java method declares. */
  lemma MethodDescriptorShape(m: Method)
    ensures MethodDescriptor(m).Ok? <==> |m.params| == 0 || m.params[0].ptype != VoidType
    ensures MethodDescriptor(m).Ok? ==> (
      var d := MethodDescriptor(m).value;
      && (d.result.None? <==> m.ret == VoidType)
      && (m.ret != VoidType ==> d.result == ToLayout(m.ret))
      && |d.args| == |m.params|
      && forall i :: 0 <= i < |d.args| ==> Some(d.args[i]) == ToLayout(m.params[0].ptype))
  {
    if |m.params| > 0 && m.params[0].ptype == VoidType {
      assert MethodArgLayouts(m)[0].None?;
    }
  }

  /** `buildDescriptor(MethodHandle)`: `null` for a `null` handle. */
  function HandleDescriptor(h: Option<MethodHandle>): (r: Result<Option<FunctionDescriptor>>)
    ensures h.None? <==> r == Ok(None)
    ensures h.Some? ==> (r.Ok? <==> forall i :: 0 <= i < |TypeOf(h.value).ptypes| ==> TypeOf(h.value).ptypes[i] != VoidType)
    ensures r.Err? ==> r.error == NullPointer
    ensures h.Some? && r.Ok? ==> (
      var mt := TypeOf(h.value);
      && r.value.Some?
      && r.value.value.result == ToLayout(mt.ret)
      && |r.value.value.args| == |mt.ptypes|
      && forall i :: 0 <= i < |mt.ptypes| ==> Some(r.value.value.args[i]) == ToLayout(mt.ptypes[i]))
  {
    if h.None? then Ok(None)
    else
      var mt := TypeOf(h.value);
      var d := Describe(mt.ret, TypeArgLayouts(mt.ptypes));
      TypeDescribes(mt);
      assert (d.Ok?) == (forall i :: 0 <= i < |TypeOf(h.value).ptypes| ==> TypeOf(h.value).ptypes[i] != VoidType);
      if d.Err? then Err(d.error) else Ok(Some(d.value))
  }

  /** A handle type describes exactly when no parameter type is `void`. */
  lemma TypeDescribes(mt: MethodType)
    ensures Describe(mt.ret, TypeArgLayouts(mt.ptypes)).Ok?
        <==> forall i :: 0 <= i < |mt.ptypes| ==> mt.ptypes[i] != VoidType
  {
    var ls := TypeArgLayouts(mt.ptypes);
    if Describe(mt.ret, ls).Ok? {
      forall i | 0 <= i < |mt.ptypes| ensures mt.ptypes[i] != VoidType {
        assert ls[i].Some?;
      }
    } else {
      var i :| 0 <= i < |ls| && ls[i].None?;
      assert mt.ptypes[i] == VoidType;
    }
  }

  /** A native function pointer produced by `Linker.upcallStub`. */
  datatype Pointer = UpcallStub(target: MethodHandle, descriptor: FunctionDescriptor)

  /** `toPointer(handle, arena)` of `Converters` and `ForeignGenerator`: a
      `null` handle gives a `null` pointer, otherwise an upcall stub for the
      handle with the handle's own descriptor. */
  function ToPointer(h: Option<MethodHandle>): (r: Result<Option<Pointer>>)
    ensures h.None? ==> r == Ok(None)
    ensures h.Some? ==> (r.Ok? <==> HandleDescriptor(h).Ok?)
    ensures h.Some? && r.Ok? ==> (r.value.Some?
                                  && r.value.value.target == h.value
                                  && HandleDescriptor(h) == Ok(Some(r.value.value.descriptor)))
  {
    var d := HandleDescriptor(h);
    if d.Err? then Err(d.error)
    else if d.value.None? then Ok(None)
    else Ok(Some(UpcallStub(h.value, d.value.value)))
  }

  /** `toPointer(handle)` of the invocation handler, which has no `null`
      check: a `null` handle fails when its type is read. */
  function ToPointerUnchecked(h: Option<MethodHandle>): (r: Result<Pointer>)
    ensures h.None? ==> r == Err(NullPointer)
    ensures h.Some? ==> (r.Ok? <==> ToPointer(h).Ok?)
    ensures r.Ok? ==> ToPointer(h) == Ok(Some(r.value))
  {
    if h.None? then Err(NullPointer)
    else
      var p := ToPointer(h);
      if p.Err? then Err(p.error) else Ok(p.value.value)
  }
}

=== FILE: native_memory.dfy ===
/**
 Native memory as the converters see it: a segment is a sequence of
 unsigned bytes, and a Java primitive array is copied into it element by
 element in native (little-endian) byte order, as `Arena.allocateArray`
 does; `MemorySegment.toArray` reads it back.
 */
module NativeMemory {
  import opened Jvm

  newtype uint8 = x: int | 0 <= x < 0x100

  /** The contents of a `MemorySegment`. */
  type Segment = seq<uint8>

  function Pow256(w: nat): (p: nat)
    ensures p >= 1
  {
    if w == 0 then 1 else 256 * Pow256(w - 1)
  }

  lemma Pow256Values()
    ensures Pow256(1) == 0x100
    ensures Pow256(2) == 0x1_0000
    ensures Pow256(4) == 0x1_0000_0000
    ensures Pow256(8) == 0x1_0000_0000_0000_0000
  {
    assert Pow256(2) == 256 * Pow256(1);
    assert Pow256(4) == 256 * (256 * Pow256(2));
    assert Pow256(8) == 256 * (256 * (256 * (256 * Pow256(4))));
  }

  /** An unsigned `w`-byte word, least significant byte first. */
  function EncodeWord(w: nat, v: nat): (bs: Segment)
    requires v < Pow256(w)
    ensures |bs| == w
  {
    if w == 0 then []
    else [(v % 256) as uint8] + EncodeWord(w - 1, v / 256)
  }

  function DecodeWord(bs: Segment): (v: nat)
    ensures v < Pow256(|bs|)
  {
    if |bs| == 0 then 0
    else bs[0] as nat + 256 * DecodeWord(bs[1..])
  }

  lemma {:induction false} DecodeEncodeWord(w: nat, v: nat)
    requires v < Pow256(w)
    ensures DecodeWord(EncodeWord(w, v)) == v
  {
    if w > 0 {
      var bs := EncodeWord(w, v);
      assert bs[1..] == EncodeWord(w - 1, v / 256);
      DecodeEncodeWord(w - 1, v / 256);
    }
  }

  lemma {:induction false} EncodeDecodeWord(bs: Segment)
    ensures EncodeWord(|bs|, DecodeWord(bs)) == bs
  {
    if |bs| > 0 {
      var v, rest := DecodeWord(bs), DecodeWord(bs[1..]);
      assert v == bs[0] as nat + 256 * rest;
      assert v % 256 == bs[0] as nat && v / 256 == rest;
      EncodeDecodeWord(bs[1..]);
      assert bs == [bs[0]] + bs[1..];
    }
  }

  predicate WordsFit(w: nat, vs: seq<nat>) {
    forall i :: 0 <= i < |vs| ==> vs[i] < Pow256(w)
  }

  /** A sequence of words laid out one after another. */
  function EncodeWords(w: nat, vs: seq<nat>): (seg: Segment)
    requires WordsFit(w, vs)
    ensures |seg| == w * |vs|
  {
    if |vs| == 0 then []
    else EncodeWord(w, vs[0]) + EncodeWords(w, vs[1..])
  }

  /** Reads a segment of `n` words back. */
  function DecodeWords(w: nat, n: nat, seg: Segment): (vs: seq<nat>)
    requires |seg| == w * n
    ensures |vs| == n
    ensures WordsFit(w, vs)
  {
    if n == 0 then []
    else
      OneWordLess(w, n);
      [DecodeWord(seg[..w])] + DecodeWords(w, n - 1, seg[w..])
  }

  lemma OneWordLess(w: nat, n: nat)
    requires n > 0
    ensures w * n - w == w * (n - 1)
  {
  }

  lemma {:induction false} DecodeEncodeWords(w: nat, vs: seq<nat>)
    requires WordsFit(w, vs)
    ensures DecodeWords(w, |vs|, EncodeWords(w, vs)) == vs
  {
    if |vs| > 0 {
      var seg := EncodeWords(w, vs);
      var first := EncodeWord(w, vs[0]);
      assert seg == first + EncodeWords(w, vs[1..]);
      assert seg[..w] == first;
      assert seg[w..] == EncodeWords(w, vs[1..]);
      DecodeEncodeWord(w, vs[0]);
      DecodeEncodeWords(w, vs[1..]);
    }
  }

  /** Half the range of a `w`-byte word: signed values lie in
      `[-Half(w), Half(w))`. */
  function Half(w: nat): (h: nat)
    requires w > 0
    ensures Pow256(w) == 2 * h
  {
    128 * Pow256(w - 1)
  }

  lemma {:induction false} EncodeDecodeWords(w: nat, n: nat, seg: Segment)
    requires |seg| == w * n
    ensures EncodeWords(w, DecodeWords(w, n, seg)) == seg
  {
    if n > 0 {
      OneWordLess(w, n);
      var vs := DecodeWords(w, n, seg);
      assert vs[1..] == DecodeWords(w, n - 1, seg[w..]);
      EncodeDecodeWord(seg[..w]);
      EncodeDecodeWords(w, n - 1, seg[w..]);
      assert seg == seg[..w] + seg[w..];
    }
  }

  /** Two's-complement storage of a signed value in `w` bytes. */
  function ToUnsigned(x: int, w: nat): (u: nat)
    requires w > 0 && -(Half(w) as int) <= x < Half(w)
    ensures u < Pow256(w)
  {
    if x < 0 then x + Pow256(w) else x
  }

  /** Reading `w` stored bytes back as a signed value. */
  function ToSigned(u: nat, w: nat): (x: int)
    requires w > 0 && u < Pow256(w)
    ensures -(Half(w) as int) <= x < Half(w)
  {
    if u >= Half(w) then u - Pow256(w) else u
  }

  /** Storing a signed value and reading it back gives the value. */
  lemma SignedRoundTrip(x: int, w: nat)
    requires w > 0 && -(Half(w) as int) <= x < Half(w)
    ensures ToSigned(ToUnsigned(x, w), w) == x
  {
  }

  /** Every stored word is the storage of exactly one signed value. */
  lemma UnsignedRoundTrip(u: nat, w: nat)
    requires w > 0 && u < Pow256(w)
    ensures ToUnsigned(ToSigned(u, w), w) == u
  {
  }

  /** A Java primitive array, one constructor per element type. */
  datatype PrimArray =
    | ByteArray(bytes: seq<int8>)
    | BooleanArray(bits: seq<bool>)
    | CharArray(chars: seq<char16>)
    | DoubleArray(doubles: seq<float64>)
    | FloatArray(floats: seq<float32>)
    | IntArray(ints: seq<int32>)
    | LongArray(longs: seq<int64>)
    | ShortArray(shorts: seq<int16>)

  function Kind(a: PrimArray): Scalar {
    match a
    case ByteArray(_) => Byte
    case BooleanArray(_) => Boolean
    case CharArray(_) => Char
    case DoubleArray(_) => Double
    case FloatArray(_) => Float
    case IntArray(_) => Int
    case LongArray(_) => Long
    case ShortArray(_) => Short
  }

  function Length(a: PrimArray): nat {
    match a
    case ByteArray(xs) => |xs|
    case BooleanArray(xs) => |xs|
    case CharArray(xs) => |xs|
    case DoubleArray(xs) => |xs|
    case FloatArray(xs) => |xs|
    case IntArray(xs) => |xs|
    case LongArray(xs) => |xs|
    case ShortArray(xs) => |xs|
  }

  /** `new byte[0]`, `new boolean[0]`, ... */
  function EmptyArray(s: Scalar): (a: PrimArray)
    ensures Kind(a) == s && Length(a) == 0
  {
    match s
    case Byte => ByteArray([])
    case Boolean => BooleanArray([])
    case Char => CharArray([])
    case Double => DoubleArray([])
    case Float => FloatArray([])
    case Int => IntArray([])
    case Long => LongArray([])
    case Short => ShortArray([])
  }

  /** The byte size of one element of each kind (`JAVA_BOOLEAN` is one byte). */
  function ElementSize(s: Scalar): (w: nat)
    ensures w in {1, 2, 4, 8}
  {
    match s
    case Byte => 1
    case Boolean => 1
    case Char => 2
    case Short => 2
    case Int => 4
    case Float => 4
    case Long => 8
    case Double => 8
  }

  /** The stored form of each element kind, one helper per width. */
  function ByteWords(xs: seq<int8>): (ws: seq<nat>)
    ensures |ws| == |xs| && WordsFit(1, ws)
  {
    assert Pow256(1) == 0x100 && Half(1) == 0x80;
    seq(|xs|, i requires 0 <= i < |xs| => ToUnsigned(xs[i] as int, 1))
  }

  function BitWords(xs: seq<bool>): (ws: seq<nat>)
    ensures |ws| == |xs| && WordsFit(1, ws)
  {
    seq(|xs|, i requires 0 <= i < |xs| => if xs[i] then 1 else 0)
  }

  function ShortWords(xs: seq<int16>): (ws: seq<nat>)
    ensures |ws| == |xs| && WordsFit(2, ws)
  {
    assert Pow256(2) == 0x1_0000 by { assert Pow256(2) == 256 * Pow256(1); }
    assert Half(2) == 0x8000;
    seq(|xs|, i requires 0 <= i < |xs| => ToUnsigned(xs[i] as int, 2))
  }

  function CharWords(xs: seq<char16>): (ws: seq<nat>)
    ensures |ws| == |xs| && WordsFit(2, ws)
  {
    assert Pow256(2) == 0x1_0000 by { assert Pow256(2) == 256 * Pow256(1); }
    seq(|xs|, i requires 0 <= i < |xs| => xs[i] as nat)
  }

  function IntWords(xs: seq<int32>): (ws: seq<nat>)
    ensures |ws| == |xs| && WordsFit(4, ws)
  {
    Pow256Values();
    assert Half(4) == 0x8000_0000;
    seq(|xs|, i requires 0 <= i < |xs| => ToUnsigned(xs[i] as int, 4))
  }

  function FloatWords(xs: seq<float32>): (ws: seq<nat>)
    ensures |ws| == |xs| && WordsFit(4, ws)
  {
    Pow256Values();
    seq(|xs|, i requires 0 <= i < |xs| => xs[i] as nat)
  }

  function LongWords(xs: seq<int64>): (ws: seq<nat>)
    ensures |ws| == |xs| && WordsFit(8, ws)
  {
    Pow256Values();
    assert Half(8) == 0x8000_0000_0000_0000;
    seq(|xs|, i requires 0 <= i < |xs| => ToUnsigned(xs[i] as int, 8))
  }

  function DoubleWords(xs: seq<float64>): (ws: seq<nat>)
    ensures |ws| == |xs| && WordsFit(8, ws)
  {
    Pow256Values();
    seq(|xs|, i requires 0 <= i < |xs| => xs[i] as nat)
  }

  /** The stored (unsigned) form of each element. */
  function Words(a: PrimArray): (ws: seq<nat>)
    ensures |ws| == Length(a)
    ensures WordsFit(ElementSize(Kind(a)), ws)
  {
    match a
    case ByteArray(xs) => ByteWords(xs)
    case BooleanArray(xs) => BitWords(xs)
    case CharArray(xs) => CharWords(xs)
    case DoubleArray(xs) => DoubleWords(xs)
    case FloatArray(xs) => FloatWords(xs)
    case IntArray(xs) => IntWords(xs)
    case LongArray(xs) => LongWords(xs)
    case ShortArray(xs) => ShortWords(xs)
  }

  /** Elements of kind `s` from their stored words. `MemorySegment` has no
      `toArray` for booleans, hence the exclusion. */
  function FromWords(s: Scalar, ws: seq<nat>): (a: PrimArray)
    requires s != Boolean && WordsFit(ElementSize(s), ws)
    ensures Kind(a) == s && Length(a) == |ws|
  {
    Pow256Values();
    assert Half(1) == 0x80 && Half(2) == 0x8000 && Half(4) == 0x8000_0000 && Half(8) == 0x8000_0000_0000_0000;
    match s
    case Byte => ByteArray(seq(|ws|, i requires 0 <= i < |ws| => ToSigned(ws[i], 1) as int8))
    case Char => CharArray(seq(|ws|, i requires 0 <= i < |ws| => ws[i] as char16))
    case Double => DoubleArray(seq(|ws|, i requires 0 <= i < |ws| => ws[i] as float64))
    case Float => FloatArray(seq(|ws|, i requires 0 <= i < |ws| => ws[i] as float32))
    case Int => IntArray(seq(|ws|, i requires 0 <= i < |ws| => ToSigned(ws[i], 4) as int32))
    case Long => LongArray(seq(|ws|, i requires 0 <= i < |ws| => ToSigned(ws[i], 8) as int64))
    case Short => ShortArray(seq(|ws|, i requires 0 <= i < |ws| => ToSigned(ws[i], 2) as int16))
  }

  lemma FromWordsOfWords(a: PrimArray)
    requires Kind(a) != Boolean
    ensures FromWords(Kind(a), Words(a)) == a
  {
    Pow256Values();
    assert Half(1) == 0x80 && Half(2) == 0x8000 && Half(4) == 0x8000_0000 && Half(8) == 0x8000_0000_0000_0000;
    match a
    case ByteArray(xs) =>
      forall i | 0 <= i < |xs| { SignedRoundTrip(xs[i] as int, 1); }
    case IntArray(xs) =>
      forall i | 0 <= i < |xs| { SignedRoundTrip(xs[i] as int, 4); }
    case LongArray(xs) =>
      forall i | 0 <= i < |xs| { SignedRoundTrip(xs[i] as int, 8); }
    case ShortArray(xs) =>
      forall i | 0 <= i < |xs| { SignedRoundTrip(xs[i] as int, 2); }
    case _ =>
  }

  lemma WordsOfFromWords(s: Scalar, ws: seq<nat>)
    requires s != Boolean && WordsFit(ElementSize(s), ws)
    ensures Words(FromWords(s, ws)) == ws
  {
    var w := ElementSize(s);
    if s == Byte || s == Int || s == Long || s == Short {
      forall i | 0 <= i < |ws| { UnsignedRoundTrip(ws[i], w); }
    }
  }

  /** `Arena.allocateArray(layout, array)`: a new segment holding a copy of
      the array's elements. */
  function AllocateArray(a: PrimArray): (seg: Segment)
    ensures |seg| == ElementSize(Kind(a)) * Length(a)
    ensures DecodeWords(ElementSize(Kind(a)), Length(a), seg) == Words(a)
  {
    var seg := EncodeWords(ElementSize(Kind(a)), Words(a));
    DecodeEncodeWords(ElementSize(Kind(a)), Words(a));
    seg
  }

  /** `MemorySegment.toArray(layout)`: fails unless the segment's size is a
      multiple of the element size. */
  function ToArray(s: Scalar, seg: Segment): (r: Result<PrimArray>)
    requires s != Boolean
    ensures r.Ok? <==> |seg| % ElementSize(s) == 0
    ensures r.Err? ==> r.error == IllegalState
    ensures r.Ok? ==> Kind(r.value) == s && Length(r.value) == |seg| / ElementSize(s)
  {
    var w := ElementSize(s);
    if |seg| % w != 0 then Err(IllegalState)
    else Ok(FromWords(s, DecodeWords(w, |seg| / w, seg)))
  }

  /** Copying a segment's elements into a new segment reproduces it. */
  lemma AllocateOfToArray(s: Scalar, seg: Segment)
    requires s != Boolean && |seg| % ElementSize(s) == 0
    ensures AllocateArray(ToArray(s, seg).value) == seg
  {
    var w := ElementSize(s);
    var n := |seg| / w;
    assert |seg| == w * n;
    WordsOfFromWords(s, DecodeWords(w, n, seg));
    EncodeDecodeWords(w, n, seg);
  }

  /** Reading back a freshly allocated copy returns the original array. */
  lemma ToArrayOfAllocate(a: PrimArray)
    requires Kind(a) != Boolean
    ensures ToArray(Kind(a), AllocateArray(a)) == Ok(a)
  {
    var w, ws := ElementSize(Kind(a)), Words(a);
    var seg := AllocateArray(a);
    assert seg == EncodeWords(w, ws);
    WholeWords(w, |ws|);
    DecodeEncodeWords(w, ws);
    FromWordsOfWords(a);
  }

  /** A segment of `n` words of `w` bytes splits evenly into `n` words. */
  lemma WholeWords(w: nat, n: nat)
    requires w in {1, 2, 4, 8}
    ensures (w * n) % w == 0 && (w * n) / w == n
  {
  }
}
